=== FILE: README.md ===
# MonitorIA Legislativa — a Dafny model of its data rules and sync commands

This project models the part of MonitorIA Legislativa that decides what ends up in the database.

- **The `Sexo` record's `save()`.** It derives a unique slug from the name (`base`, `base-1`, `base-2`, …). It decides whether a rename is "significant", using the Jaccard similarity of the two word sets. When it is, it writes an AI description capped at 500 characters. It then records the name it saw.
- **The IBGE locality sync.** Regions, states and municipalities are upserted by IBGE code. A municipality's state is read from the first two digits of its code. Municipalities in the list of state capitals are flagged `is_capital`, and the table forbids two capitals in one state.
- **The Câmara dos Deputados syncs.** Proposition types are upserted by `cod`. Parties are upserted by id, optionally with their detail record.
- **The proposition-type migration.** It fills a proposition's type foreign key from its legacy `tipo` text, choosing the type with the textually first `cod`.
- **The seeding commands.** `populate_sexo` seeds M, F and NB. `create_sample_news` creates five categories, the `admin` user and five published news items.
- **The news portal's models.** They fill a slug once and never change it afterwards.
- **The AI analysis service.** It has a guard for a missing API key, a fallback when the call raises, and the conversion of a model answer into a list.

Each module is written as pure functions over immutable tables (`map`s keyed the way the database keys them). The things the model cannot see become parameters: the HTTP answers, the OpenAI replies, `slugify`, `str.lower`, `strptime`, and the database writes that raise. `update_or_create` and `get_or_create` loops share one generic fold (`Upsert.Apply`) and its lemmas. Python's `str.strip()`, `str.split()` and `str.split(sep)` are written out exactly over Python's whitespace set (`Text`). So are `str(n)` and `int(s)` (`Decimal`) and string ordering (`LexOrder`).

Files: `basics.dfy`, `text.dfy`, `decimal.dfy`, `lexorder.dfy`, `upsert.dfy` (shared), `sexo.dfy`, `ibge.dfy`, `tipos.dfy`, `migrate.dfy`, `partidos.dfy`, `populate.dfy`, `news.dfy`, `sample_news.dfy`, `ai.dfy`.

## Model

| member | source | states |
|---|---|---|
| Sexo.UniqueSlug | legislative_monitor/models.py:350-359 | The slug chosen is held by no other row. It is the slugified name itself when that is free. Otherwise it is `base-n`, where every earlier attempt (`base`, `base-1`, …, `base-(n-1)`) is taken. |
| Sexo.UniqueSlugLoop | legislative_monitor/models_sexo.py:53-62 | The `while … exists()` loop terminates, because each failed attempt is a distinct taken slug. It settles on exactly `UniqueSlug`. |
| Sexo.GenerateSlug | legislative_monitor/models.py:345-359 | Only the slug changes. When the slug is empty or the name changed since the last save, the new slug is the first free one of `base`, `base-1`, … for the slugified name, so no other row holds it. Otherwise the slug is kept. |
| Sexo.SimilarityIsDistance | legislative_monitor/models.py:362-393 | The code's test "similarity < 0.7" is equivalent to the docstring's "more than 30% of the words differ" (symmetric difference over union > 0.3). |
| Sexo.SameWordsNotSignificant | legislative_monitor/models.py:369-393 | With a non-empty previous name, a rename that keeps the same set of lower-cased words is never significant. This covers case, spacing and word order. |
| Sexo.DisjointWordsSignificant | legislative_monitor/models_sexo.py:72-96 | A rename that shares no word with the previous name, and is not textually equal to it, is significant. |
| Sexo.Truncate | legislative_monitor/models.py:441-444 | A description is never longer than 500 characters. One that fits is unchanged. One that does not is its first 497 characters followed by "...". |
| Sexo.TruncateIdempotent | legislative_monitor/models_sexo.py:141-144 | Capping a capped description changes nothing. |
| Sexo.DescriptionFits | legislative_monitor/models.py:395-448 | For a name within its 100-character column, every branch yields at most 500 characters: no key, a reply, or an exception. |
| Sexo.Save | legislative_monitor/models.py:450-469 | `sigla`, `nome` and the in-memory `_nome_anterior` are unchanged. The stored row records the new name as `_nome_anterior`. The slug is refreshed exactly under `_gerar_slug`'s condition, to the first free candidate for the slugified name, and the description exactly when the rename is significant. |
| Sexo.CreateDescribes | legislative_monitor/models.py:369-370 | The first save of a new row always slugs it, always asks for a description, and records the name. |
| Sexo.ResaveIsStable | legislative_monitor/models_sexo.py:150-169 | Saving a saved row again, with the same other rows, is a no-op whatever the AI would answer. This holds for a non-empty name. |
| Text.StripShape | ai_analysis/services/ai_service.py:101 | `s.strip()` is a contiguous piece of `s`. It neither starts nor ends with whitespace, and everything cut away is whitespace. |
| Text.StripEmptyIffAllSpace | ai_analysis/services/ai_service.py:101 | `s.strip()` is empty exactly when `s` is all whitespace, so `if p.strip()` keeps exactly the lines that hold a visible character. |
| Text.WordsShape | legislative_monitor/models.py:380-385 | Every word of `s.split()` is non-empty and holds no whitespace. |
| Text.StripIdempotent | ai_analysis/services/ai_service.py:101 | `s.strip().strip() == s.strip()`. |
| Text.NoWordsIffBlank | legislative_monitor/models.py:380-385 | `s.split()` is empty exactly when `s` is all whitespace. |
| Text.JoinSplit | ai_analysis/services/ai_service.py:99-101 | `split('\n')` loses nothing: joining the pieces with `'\n'` gives the text back. |
| Decimal.ParseNatToString | legislative_monitor/management/commands/sync_ibge_localidades.py:150 | `int(str(n)) == n`. |
| Ibge.Phases | legislative_monitor/management/commands/sync_ibge_localidades.py:34-43 | With no flag, all three phases run. Otherwise a phase runs if and only if its flag is given. Phases always run in the order regions, states, municipalities. |
| Ibge.StateCodeOfSevenDigits | legislative_monitor/management/commands/sync_ibge_localidades.py:150 | For a seven-digit code, `int(str(id)[:2])` is `id / 100000`. |
| Ibge.CapitalsInDistinctStates | legislative_monitor/management/commands/sync_ibge_localidades.py:116-144 | In the corrected capital set, no two capitals share a state code. |
| Ibge.TwoListedCapitalsClash | legislative_monitor/management/commands/sync_ibge_localidades.py:146-162 | For any capital set, two different capitals with the same stored state code, synced one after the other, make the command stop on a refused write. |
| Ibge.ListedCapitalsAreUnique | legislative_monitor/models.py:265-271 | A table whose capital rows are listed capitals, each filed under its own code's state, meets `unique_capital_per_state`. |
| Ibge.SyncRegioes | legislative_monitor/management/commands/sync_ibge_localidades.py:47-69 | A failed or empty answer aborts the phase and changes nothing. Otherwise the command stops exactly when some record's `sigla` is already held by another code, given the writes before it (the unique `Regiao.sigla`, legislative_monitor/models.py:213; no `try` around the loop). When it does not stop, the reported total is the length of the list and the table is the one every write leaves. The other tables are untouched. |
| Ibge.RegiaoSiglaTaken | legislative_monitor/management/commands/sync_ibge_localidades.py:56-63 | A region whose `sigla` another stored code holds stops the command and changes nothing. |
| Ibge.SyncEstados | legislative_monitor/management/commands/sync_ibge_localidades.py:71-103 | A failed or empty answer aborts the phase. Otherwise the command stops exactly when some state whose region is stored has a `sigla` already held by another code, given the writes before it (the unique `Estado.sigla`, legislative_monitor/models.py:232; only `Regiao.DoesNotExist` is caught). When it does not stop, the total is the length of the list, skipped states included, and the table is the one every write leaves. Regions and municipalities are untouched. |
| Ibge.EstadoSiglaTaken | legislative_monitor/management/commands/sync_ibge_localidades.py:80-101 | A state whose region is stored and whose `sigla` another stored code holds stops the command and changes nothing. |
| Ibge.SyncMunicipios | legislative_monitor/management/commands/sync_ibge_localidades.py:105-175 | For any capital set: a failed or empty answer aborts the phase. Otherwise the command stops (an uncaught `IntegrityError` from `unique_capital_per_state`, legislative_monitor/models.py:265-271) exactly when some write would put a second capital in a state, given the writes before it; otherwise the phase completes and the table is the one every write leaves. Regions and states are untouched. |
| Ibge.RegioesUpserted | legislative_monitor/management/commands/sync_ibge_localidades.py:56-63 | When every write goes through (the phase completes): a region code holds the `sigla` and `nome` of its last record. Codes absent from the answer keep their row, or their absence. |
| Ibge.EstadosUpserted | legislative_monitor/management/commands/sync_ibge_localidades.py:80-101 | When every write goes through (the phase completes): a state code holds its last record whose region is stored. A state with an unknown region is skipped without stopping the loop. Codes without such a record are untouched. |
| Ibge.MunicipiosUpserted | legislative_monitor/management/commands/sync_ibge_localidades.py:148-162 | For any capital set, when every write goes through: a municipality whose state is stored holds its last name, the state of its first two digits, and whether it is in the capital set. Others are untouched. |
| Ibge.MunicipioSkipped | legislative_monitor/management/commands/sync_ibge_localidades.py:151-173 | A municipality is skipped if and only if the state of its first two digits is not stored. |
| Ibge.MunicipioTotal | legislative_monitor/management/commands/sync_ibge_localidades.py:164-175 | When the phase completes, the printed total plus the skipped municipalities equals the length of the list. |
| Ibge.RunKeepsCapitalsListed | legislative_monitor/management/commands/sync_ibge_localidades.py:26-43 | With the corrected capital set, any run of the command, with any flags and any API answers, is never stopped by its municipality phase (it can still stop on a region or state `sigla`), and flags only listed capitals, each filed under its own code's state, when the table started that way. |
| Ibge.RunKeepsOneCapitalPerState | legislative_monitor/models.py:265-271 | With the corrected capital set, any run of the command is never stopped by its municipality phase and keeps at most one capital per state, with any flags and any API answers, starting from a table whose capitals are listed ones (an empty table, for one). |
| Ibge.AsWrittenTwoCapitalsInMinasGerais | legislative_monitor/management/commands/sync_ibge_localidades.py:134 | With the capital set as written, syncing 3106200 and then 3170206 asks for two capitals of state 31, so the command stops on a refused write, whatever the table held before, as long as state 31 is stored. |
| Ibge.ListedNeverClash | legislative_monitor/models.py:265-271 | On a table whose capitals are listed ones, no write of the corrected set is refused by `unique_capital_per_state`. |
| Ibge.MunicipioPhaseListed | legislative_monitor/management/commands/sync_ibge_localidades.py:146-175 | With the corrected set, the municipality phase never stops on a refused write, and keeps the capitals listed ones. |
| TiposSync.Sync | legislative_monitor/management/commands/sync_tipos_proposicao.py:17-62 | A failed fetch reports failure and changes nothing. Otherwise created + updated + errors equals the number of records. |
| TiposSync.SyncOutcome | legislative_monitor/management/commands/sync_tipos_proposicao.py:29-50 | A record is an error if and only if it lacks `cod`, `sigla` or `nome`, sends `descricao` as null (refused by the non-null column, legislative_monitor/models.py:283), or its write is otherwise refused. A null `descricao` is always an error. A record is created if and only if its write goes through and its `cod` was not stored before it. |
| TiposSync.SyncStores | legislative_monitor/management/commands/sync_tipos_proposicao.py:31-38 | A code holds the `sigla`, `nome` and `descricao` of its last complete record whose write goes through. That record never has a null `descricao`, and a left-out `descricao` is stored as "". Other codes keep their row. |
| TiposSync.AbsentAndNullDiffer | legislative_monitor/management/commands/sync_tipos_proposicao.py:29-50 | A record without `descricao` followed by the same record with `descricao: null` gives 1 created, 0 updated and 1 error, and stores `descricao` "". |
| TiposSync.SyncRerun | legislative_monitor/management/commands/sync_tipos_proposicao.py:31-53 | A second run on the same answer leaves the table as it is. It creates nothing and reports the same errors. |
| MigrateTipos.FirstCod | legislative_monitor/management/commands/migrate_tipos_proposicao.py:45-47 | None if and only if no type has the sigla. Otherwise the result is a matching code that sorts textually before every other matching code. |
| MigrateTipos.FirstCodUnique | legislative_monitor/management/commands/migrate_tipos_proposicao.py:45-47 | `order_by('cod').first()` is determined: two first codes are equal. |
| MigrateTipos.CountsCoverSelected | legislative_monitor/management/commands/migrate_tipos_proposicao.py:25-34 | Every proposition falls in exactly one branch. "Nothing to migrate" happens exactly when no proposition is selected. |
| MigrateTipos.MigrateOne | legislative_monitor/management/commands/migrate_tipos_proposicao.py:41-82 | One iteration: the branch taken, and the row is changed only when migrated outside a dry run. Then it gets the first type of its sigla. |
| MigrateTipos.Migrate | legislative_monitor/management/commands/migrate_tipos_proposicao.py:25-103 | A dry run changes no row. Unmigrated rows are unchanged, and migrated ones get the first code of their sigla. The report is empty exactly when nothing is selected. The counters count the branches. The missing siglas are listed sorted, without repeats, and are exactly those of the not-found rows. |
| LexOrder.Sorted | legislative_monitor/management/commands/migrate_tipos_proposicao.py:98 | `sorted(set)` lists exactly the set's strings, in strictly increasing textual order. |
| PartidosSync.ParseDatetime | legislative_monitor/management/commands/sync_partidos.py:116-125 | None for a missing or empty string, and where `strptime` fails. Otherwise the value `strptime` gives. |
| PartidosSync.Sync | legislative_monitor/management/commands/sync_partidos.py:29-100 | A failed fetch reports failure and changes nothing. Otherwise the total is the list length, and created + updated + errors equals the total. |
| PartidosSync.ErrorIffRaises | legislative_monitor/management/commands/sync_partidos.py:45-96 | A record is counted as an error if and only if it lacks `id`, `sigla` or `nome`, or its write raises. |
| PartidosSync.ListFieldsWritten | legislative_monitor/management/commands/sync_partidos.py:75-83 | A party holds the `sigla`, `nome` and `uri` of its last complete record whose write goes through, with `uri` defaulting to "". Parties no such record names keep their row. |
| PartidosSync.DetailsWritten | legislative_monitor/management/commands/sync_partidos.py:53-72 | With `--detalhes`, a party whose last complete record is written holds the status fields of its detail record when the status is non-empty. It holds the additional fields whenever there is a detail record. |
| PartidosSync.DetailsOnlyFromApi | legislative_monitor/management/commands/sync_partidos.py:60-83 | Status and additional fields either keep their previous value or take the one the detail record supplies. |
| PartidosSync.ListOnlyWithoutDetails | legislative_monitor/management/commands/sync_partidos.py:53-55 | Without `--detalhes`, no status or additional field changes, and new parties have none. |
| PopulateSexo.Step | legislative_monitor/management/commands/populate_sexo.py:40-94 | Each seed is created exactly when its sigla is absent and the write succeeds. It is updated exactly with `--force` on an existing sigla. It is kept exactly without `--force` on an existing sigla. A failure or a kept row changes nothing. No other sigla changes. |
| PopulateSexo.RunPreserves | legislative_monitor/models.py:316-321 | A run keeps rows filed under their sigla and keeps slugs unique. |
| PopulateSexo.WithoutForceKeepsRows | legislative_monitor/management/commands/populate_sexo.py:60-65 | Without `--force`, every existing row is left exactly as it was. |
| PopulateSexo.SeedsPresent | legislative_monitor/management/commands/populate_sexo.py:21-79 | When no write fails, M, F and NB exist afterwards. Each one created or forced carries its seeded name. |
| PopulateSexo.SecondRunIsQuiet | legislative_monitor/management/commands/populate_sexo.py:46-65 | On a table holding M, F and NB, a run without `--force` creates, updates and fails nothing, and changes nothing. |
| NewsModels.SaveIdempotent | news_portal/models.py:77-80 | Saving a category, news item or tag twice is the same as saving it once. |
| NewsModels.SlugSurvivesRename | news_portal/models.py:100-103 | After a rename, a saved category, news item or tag keeps the slug of its first name. |
| NewsModels.CreateCategoria | news_portal/models.py:10 | The unique index on `slug` refuses a new category exactly when some stored row already holds the slug its `save()` fills in. Otherwise the row is appended and nothing else changes. |
| NewsModels.CreateKeepsSlugsUnique | news_portal/models.py:10 | A successful insert keeps the category slugs pairwise distinct. |
| NewsModels.SecondSameNameRefused | news_portal/models.py:7-26 | Nothing de-duplicates slugs: a second new category with the name of one just saved is refused by the unique index, whatever the table held before. |
| SampleNews.RunSucceeds | news_portal/management/commands/create_sample_news.py:100-103 | On tables keyed by category name and news title, when every news category is among the seeded ones, the category lookup never fails. |
| SampleNews.RunCreates | news_portal/management/commands/create_sample_news.py:13-115 | Every seeded category and news item exists afterwards, and so does `admin`. Rows that existed are untouched. |
| SampleNews.CreatedNewsPublished | news_portal/management/commands/create_sample_news.py:103-112 | A news item the run creates is published, by `admin`, at the `timezone.now()` reading taken for that item (news_portal/management/commands/create_sample_news.py:110), in its seeded category, with the slug of its title. |
| SampleNews.AddedNewsPublished | news_portal/management/commands/create_sample_news.py:103-112 | Every news row the run adds is published, by `admin`, with the slug of its title, at the clock reading of an item of its title, for any seed list. |
| SampleNews.RunTwiceChangesNothing | news_portal/management/commands/create_sample_news.py:100-115 | A second run, with any clock readings, leaves every table as the first run left it. |
| SampleNews.HandleProperties | news_portal/management/commands/create_sample_news.py:13-115 | The command with its own seed lists, on tables keyed by name and title, never fails. It creates everything it lists, publishes what it adds, and is a no-op the second time. |
| AiService.GerarResumo | ai_analysis/services/ai_service.py:17-42 | Without a client, "API Key não configurada". Otherwise there is a result exactly when the model answered with content, and it is that content stripped. |
| AiService.AnalisarImpacto | ai_analysis/services/ai_service.py:44-75 | None without a client. Otherwise there is a result exactly when the model answered the `max_tokens=800` request, and it is that content stripped. |
| AiService.AnalisarSentimento | ai_analysis/services/ai_service.py:107-132 | None without a client. Otherwise there is a result exactly when the model answered the `max_tokens=100`, temperature 0.5 request, and it is that content stripped. |
| AiService.LinesShape | ai_analysis/services/ai_service.py:99-102 | Every item is non-blank, already stripped and free of newlines. An item is exactly the stripped form of a non-blank line of the stripped answer. |
| AiService.BlankAnswerNoLines | ai_analysis/services/ai_service.py:156-158 | An all-whitespace answer gives the empty list. |
| AiService.ExtrairPontos | ai_analysis/services/ai_service.py:77-105 | [] without a client and when the call fails. Otherwise the result is exactly the non-blank lines of the stripped answer, each stripped, in order, and every item is a clean one-line entry. |
| AiService.ExtrairTemas | ai_analysis/services/ai_service.py:134-161 | [] without a client and when the call fails. Otherwise the result is exactly the non-blank lines of the stripped answer, each stripped, in order, and every item is a clean one-line entry. |
| AiService.KeepNonBlankAppend | ai_analysis/services/ai_service.py:99-101 | The list comprehension filters line by line: the kept lines of two pieces are the kept lines of the first followed by those of the second. |
| AiService.KeepNonBlankOne | ai_analysis/services/ai_service.py:156-158 | A single line is kept, stripped, exactly when it holds a visible character. |
| AiService.GerarEmbedding | ai_analysis/services/ai_service.py:163-177 | None without a client, on an exception, and on an empty `data`. Otherwise the result is the first vector the API returned. |
| Upsert.CountsSum | legislative_monitor/management/commands/sync_partidos.py:85-94 | Every record is exactly one of created, updated or rejected. |
| Upsert.ApplyAt | legislative_monitor/management/commands/sync_tipos_proposicao.py:31-38 | After an `update_or_create` loop, a key holds what its last admitted record wrote, and keys no admitted record names are untouched. |
| Upsert.OverwriteRerun | legislative_monitor/management/commands/sync_ibge_localidades.py:56-63 | Re-running an `update_or_create` loop whose defaults ignore the previous row leaves the table as it is. |
| Upsert.KeepRerun | news_portal/management/commands/create_sample_news.py:103-112 | Re-running a `get_or_create` loop leaves the table as it is. |

## Left out

- Output: all console output is left out. That covers the progress lines, the every-500 municipality counter, the migration's statistics table and the party summary's wording. Only the counters and lists that the messages carry are modelled.
- The HTTP clients (`IBGEApi`, the Câmara API client) are parameters. Each list endpoint is an `Option<seq<…>>` answer, and the party detail endpoint is a function of the id.
- Malformed IBGE records (a missing `id`, `nome`, `sigla` or `regiao` key) are not modelled. They raise `KeyError` outside the caught exceptions and abort the command.
- The OpenAI client is a parameter. The prompts, the system messages and the model name's effect are not modelled, and the request carries the task, the text, `max_tokens` and the temperature.
- `slugify`, `str.lower` and `datetime.strptime` are uninterpreted functions. `strip`, `split()` and `split('\n')` are modelled exactly.
- Database errors are modelled where the source catches and counts them. The `populate_sexo` saves and the migration's `save()` fail on a set of failing keys. A proposition type with a null `descricao` is always refused; other proposition-type and party writes fail where a `raises` predicate says so. The municipality sync's `IntegrityError` is modelled as a stopped command. The `IntegrityError` that a duplicate slug raises in `create_sample_news` is not modelled.
- SampleNews.RunSucceeds: the slug unique index is not consulted, so a new category or news item whose slug an existing row already holds is taken to be written, where the source raises `IntegrityError`.
- `get` raising `MultipleObjectsReturned` is not modelled. Tables are keyed by the field the source looks up. That field is unique in the schema for `Sexo.sigla`, the IBGE ids, `TipoProposicao.cod`, `Partido.id` and `User.username`. It is not unique for `Categoria.nome` (news_portal/models.py:9) or `Noticia.titulo` (news_portal/models.py:40).
- SampleNews.RunSucceeds: tables holding two categories of one name or two news items of one title are not represented. On them, the lookups at news_portal/management/commands/create_sample_news.py:22, 101 and 103 raise `MultipleObjectsReturned`.
- SampleNews.HandleProperties: "never fails" holds only on tables without such duplicates and without slug collisions, for the two reasons above, and on a backend that stores a slug longer than its column. The slug columns are `SlugField`s of the default 50 characters (news_portal/models.py:10, 41). Three seeded titles slugify to 51, 53 and 57 characters, which PostgreSQL would refuse at news_portal/management/commands/create_sample_news.py:103.
- Sexo.SignificantChange: the float comparison `len(i)/len(u) < 0.7` is read as `10*i < 7*u`. These agree for word counts below 2^50.
- `legislative_monitor/models_sexo.py` is a verbatim copy of the `Sexo` class in `legislative_monitor/models.py`, apart from where the imports sit. One `Sexo` module models both, and the rows above cite either file.
- `Sexo._gerar_descricao_ia` reads the API key from the process environment. The model takes "no key", a reply or an exception as the `AiReply` input.
- `Noticia.conteudo`, images, tags on news, SEO fields and the many-to-many links to propositions and deputies are not modelled. The command does not inspect them.
- The party table models only the columns the command writes. Other `Partido` columns are not modelled.
- PartidosSync.Write: the detail endpoint is a function of the party id, so two records with the same id see the same detail record in one run.
- MigrateTipos.Migrate: the queryset's row order is the order of the input sequence. Database collation for `order_by('cod')` is taken to be code-point order.
- Ibge.SyncMunicipios: its own ensures does not give the printed total. `Ibge.MunicipioTotal` ties it down when the phase completes. On a stopped command, the rows written before the refused one are kept, as with autocommit.
- Ibge.RegioesUpserted: states the table a completed phase leaves. A phase stopped on a refused `sigla` keeps only the rows written before it, which `Ibge.SyncRegioes` states.
- Ibge.EstadosUpserted: states the table a completed phase leaves, as for regions; `Ibge.SyncEstados` states the stop.
- Ibge.RunKeepsCapitalsListed: no longer promises that the run never stops. A region or state answer whose `sigla` another code holds stops it, and only the municipality phase is promised never to stop.
- Ibge.RunKeepsOneCapitalPerState: promises the one-capital constraint on every run, but not that the run reaches the end, for the same reason.
- Column widths are not modelled: `max_length` (2 for the IBGE siglas, 100 for names, 50 for a `SlugField`) is stored whole by SQLite and refused with `DataError` by PostgreSQL, and the backend is not part of this model.
- Ibge.Handle uses the capital set as written. The run-wide lemmas are stated for the corrected set.
- The user-facing management command options such as `--dry-run` are modelled as parameters. Argument parsing is not.

## Findings

| source | as written | input that shows it | evidently intended | confidence | as-written member | corrected member |
|---|---|---|---|---|---|---|
| legislative_monitor/management/commands/sync_ibge_localidades.py:134 | The capital set lists 3170206 with the comment "Vitória - ES". Its first two digits, 31, are Minas Gerais. | With state 31 stored, the municipalities 3106200 (Belo Horizonte) and 3170206. Both are to be written with `is_capital=True` in state 31. `unique_capital_per_state` refuses the second write with an uncaught `IntegrityError`, which stops the command. Vitória (3205309) is never flagged. | Vitória's own IBGE code, 3205309, which puts exactly one capital in each of the 27 states. | high; not executed | Ibge.AsWrittenTwoCapitalsInMinasGerais | Ibge.RunKeepsOneCapitalPerState |

=== FILE: ai.dfy ===
/**
 * `AIAnalysisService`: five chat prompts and one embedding request to OpenAI. The client is
 * a parameter; what the model answers is an input. Every method returns a fixed value when
 * no API key is configured, and a fallback value when the call raises.
 */
module AiService {
  import opened Basics
  import Text

  const ChatModel: string := "gpt-3.5-turbo"
  const EmbeddingModel: string := "text-embedding-ada-002"

  /** Which prompt a request carries; the prompt embeds `texto`. */
  datatype Task = Resumo | Impacto | Pontos | Sentimento | Temas

  /** A chat completion request: the task, the text, `max_tokens` and `temperature` in tenths. */
  datatype Request = Request(task: Task, texto: string, maxTokens: int, temperatureTenths: nat)

  /** The answer to a chat request: the message content (None when the API returns a null
      content, on which `.strip()` raises), or an exception from the client. */
  datatype Completion = Content(content: Option<string>) | Raised

  /** The answer to an embedding request: the `data` list of vectors, or an exception. */
  datatype EmbeddingAnswer = Data(vectors: seq<seq<real>>) | EmbeddingRaised

  /** `self.client`: absent without `OPENAI_API_KEY`. */
  datatype Client = NoClient | Client(chat: Request -> Completion, embed: string -> EmbeddingAnswer)

  /** What `gerar_resumo` returns without a client. */
  const NoKeyMessage: string := "API Key não configurada"

  /** The stripped content of a chat answer; None when the call raised or there was no content. */
  function Answer(client: Client, req: Request): (r: Option<string>)
    requires client.Client?
    ensures r.Some? <==> client.chat(req).Content? && client.chat(req).content.Some?
    ensures r.Some? ==> r.value == Text.Strip(client.chat(req).content.value) && Text.Strip(r.value) == r.value
  {
    match client.chat(req)
    case Raised => None
    case Content(c) => if c.Some? then Text.StripIdempotent(c.value); Some(Text.Strip(c.value)) else None
  }

  /** The model answered `req` with some content. */
  predicate Answered(client: Client, req: Request)
    requires client.Client?
  {
    client.chat(req).Content? && client.chat(req).content.Some?
  }

  /** `gerar_resumo(texto, max_tokens=500)`. */
  function GerarResumo(client: Client, texto: string, maxTokens: int := 500): (r: Option<string>)
    ensures client.NoClient? ==> r == Some(NoKeyMessage)
    ensures client.Client? ==> (r.Some? <==> Answered(client, Request(Resumo, texto, maxTokens, 7)))
    ensures client.Client? && r.Some? ==>
      r.value == Text.Strip(client.chat(Request(Resumo, texto, maxTokens, 7)).content.value) && Text.Strip(r.value) == r.value
  {
    if client.NoClient? then Some(NoKeyMessage) else Answer(client, Request(Resumo, texto, maxTokens, 7))
  }

  /** `analisar_impacto`. */
  function AnalisarImpacto(client: Client, texto: string): (r: Option<string>)
    ensures client.NoClient? ==> r.None?
    ensures client.Client? ==> (r.Some? <==> Answered(client, Request(Impacto, texto, 800, 7)))
    ensures client.Client? && r.Some? ==>
      r.value == Text.Strip(client.chat(Request(Impacto, texto, 800, 7)).content.value) && Text.Strip(r.value) == r.value
  {
    if client.NoClient? then None else Answer(client, Request(Impacto, texto, 800, 7))
  }

  /** `analisar_sentimento_discurso`. */
  function AnalisarSentimento(client: Client, texto: string): (r: Option<string>)
    ensures client.NoClient? ==> r.None?
    ensures client.Client? ==> (r.Some? <==> Answered(client, Request(Sentimento, texto, 100, 5)))
    ensures client.Client? && r.Some? ==>
      r.value == Text.Strip(client.chat(Request(Sentimento, texto, 100, 5)).content.value) && Text.Strip(r.value) == r.value
  {
    if client.NoClient? then None else Answer(client, Request(Sentimento, texto, 100, 5))
  }

  // ---------------------------------------------------------------------------------------
  // Lists: `[p.strip() for p in content.strip().split('\n') if p.strip()]`
  // ---------------------------------------------------------------------------------------

  /** The non-blank parts, stripped, in order. */
  function KeepNonBlank(parts: seq<string>): seq<string> {
    FlatMap(Kept, parts)
  }

  /** What one part contributes: its stripped form, unless that is blank. */
  function Kept(p: string): seq<string> {
    var q := Text.Strip(p);
    if q != "" then [q] else []
  }

  /** Filtering a concatenation filters each part in turn: the list keeps the order of the
      answer's lines and one item per non-blank line. */
  lemma KeepNonBlankAppend(a: seq<string>, b: seq<string>)
    ensures KeepNonBlank(a + b) == KeepNonBlank(a) + KeepNonBlank(b)
  {
    FlatMapAppend(Kept, a, b);
  }

  /** One line gives its stripped form when that is non-blank, and nothing otherwise. */
  lemma KeepNonBlankOne(p: string)
    ensures Text.Strip(p) != "" ==> KeepNonBlank([p]) == [Text.Strip(p)]
    ensures Text.Strip(p) == "" ==> KeepNonBlank([p]) == []
  {
    assert [p][1..] == [];
    assert KeepNonBlank([p]) == Kept(p) + FlatMap(Kept, []);
  }

  /** The lines of the stripped answer. */
  function Parts(content: string): seq<string> {
    Text.Split(Text.Strip(content), '\n')
  }

  /** The list a model answer turns into. */
  function Lines(content: string): seq<string> {
    KeepNonBlank(Parts(content))
  }

  /** Each item is the stripped form of a non-blank part, and each non-blank part yields an item. */
  lemma {:induction false} KeepNonBlankMembers(parts: seq<string>)
    ensures forall x :: x in KeepNonBlank(parts) <==> exists i :: 0 <= i < |parts| && Text.Strip(parts[i]) != "" && Text.Strip(parts[i]) == x
    decreases |parts|
  {
    if |parts| > 0 {
      KeepNonBlankMembers(parts[1..]);
      var items := KeepNonBlank(parts);
      forall x
        ensures x in items <==> exists i :: 0 <= i < |parts| && Text.Strip(parts[i]) != "" && Text.Strip(parts[i]) == x
      {
        if x in KeepNonBlank(parts[1..]) {
          var i :| 0 <= i < |parts[1..]| && Text.Strip(parts[1..][i]) != "" && Text.Strip(parts[1..][i]) == x;
          assert parts[i + 1] == parts[1..][i];
        }
        if exists i :: 0 <= i < |parts| && Text.Strip(parts[i]) != "" && Text.Strip(parts[i]) == x {
          var i :| 0 <= i < |parts| && Text.Strip(parts[i]) != "" && Text.Strip(parts[i]) == x;
          if i > 0 {
            assert parts[1..][i - 1] == parts[i];
          }
        }
      }
    }
  }

  /** A list item: non-blank, already stripped, and on one line. */
  predicate CleanItem(x: string) {
    x != "" && Text.Strip(x) == x && '\n' !in x
  }

  /** A non-blank newline-free part strips to a clean item. */
  lemma StripClean(p: string)
    requires '\n' !in p && Text.Strip(p) != ""
    ensures CleanItem(Text.Strip(p))
  {
    Text.StripIdempotent(p);
    Text.StripChars(p);
  }

  /** Items drawn from newline-free parts are clean. */
  lemma {:induction false} KeepNonBlankClean(parts: seq<string>)
    requires forall i :: 0 <= i < |parts| ==> '\n' !in parts[i]
    ensures forall x :: x in KeepNonBlank(parts) ==> CleanItem(x)
    decreases |parts|
  {
    if |parts| > 0 {
      KeepNonBlankClean(parts[1..]);
      if Text.Strip(parts[0]) != "" {
        StripClean(parts[0]);
      }
    }
  }

  /** Every item of the list is non-blank, already stripped, and one line of the answer; and
      every non-blank line of the stripped answer, stripped, is an item. */
  lemma LinesShape(content: string)
    ensures forall i :: 0 <= i < |Lines(content)| ==> CleanItem(Lines(content)[i])
    ensures forall x :: x in Lines(content) <==>
      exists i :: 0 <= i < |Parts(content)| && Text.Strip(Parts(content)[i]) != "" && Text.Strip(Parts(content)[i]) == x
  {
    KeepNonBlankMembers(Parts(content));
    KeepNonBlankClean(Parts(content));
  }

  /** A blank answer gives the empty list. */
  lemma BlankAnswerNoLines(content: string)
    requires Text.AllSpace(content)
    ensures Lines(content) == []
  {
    Text.StripEmptyIffAllSpace(content);
    var parts := Text.Split(Text.Strip(content), '\n');
    assert parts == [[]];
    assert Text.Strip([]) == [];
    assert KeepNonBlank(parts) == KeepNonBlank(parts[1..]);
  }

  /** `extrair_principais_pontos`: [] without a client and when the call fails. */
  function ExtrairPontos(client: Client, texto: string): (r: seq<string>)
    ensures client.NoClient? ==> r == []
    ensures client.Client? && Answer(client, Request(Pontos, texto, 500, 7)).None? ==> r == []
    ensures client.Client? && Answer(client, Request(Pontos, texto, 500, 7)).Some? ==>
      r == Lines(Answer(client, Request(Pontos, texto, 500, 7)).value)
    ensures forall i :: 0 <= i < |r| ==> CleanItem(r[i])
  {
    if client.NoClient? then []
    else
      match Answer(client, Request(Pontos, texto, 500, 7))
      case None => []
      case Some(c) => LinesShape(c); Lines(c)
  }

  /** `extrair_temas`: [] without a client and when the call fails. */
  function ExtrairTemas(client: Client, texto: string): (r: seq<string>)
    ensures client.NoClient? ==> r == []
    ensures client.Client? && Answer(client, Request(Temas, texto, 200, 7)).None? ==> r == []
    ensures client.Client? && Answer(client, Request(Temas, texto, 200, 7)).Some? ==>
      r == Lines(Answer(client, Request(Temas, texto, 200, 7)).value)
    ensures forall i :: 0 <= i < |r| ==> CleanItem(r[i])
  {
    if client.NoClient? then []
    else
      match Answer(client, Request(Temas, texto, 200, 7))
      case None => []
      case Some(c) => LinesShape(c); Lines(c)
  }

  /** `gerar_embedding`: the first vector of `data`; None without a client, when the call
      raises, and when `data` is empty (`data[0]` raises). */
  function GerarEmbedding(client: Client, texto: string): (r: Option<seq<real>>)
    ensures client.NoClient? ==> r.None?
    ensures r.Some? ==> client.Client? && client.embed(texto).Data? && |client.embed(texto).vectors| > 0
                        && r.value == client.embed(texto).vectors[0]
    ensures client.Client? && client.embed(texto).Data? && |client.embed(texto).vectors| > 0 ==>
      r == Some(client.embed(texto).vectors[0])
  {
    if client.NoClient? then None
    else
      match client.embed(texto)
      case EmbeddingRaised => None
      case Data(vs) => if |vs| == 0 then None else Some(vs[0])
  }
}

=== FILE: basics.dfy ===
/** Small shared vocabulary: optional values (Python's `None`), timestamps, and list helpers. */
module Basics {

  /** A value that may be absent: Python's `None`, a missing JSON key, or an empty query result. */
  datatype Option<+T> = None | Some(value: T) {

    /** The value, or `default` when absent (Python's `d.get(key, default)`). */
    function GetOr(default: T): T {
      match this
      case Some(v) => v
      case None => default
    }
  }

  /** A point in time as produced by `datetime.strptime` or `timezone.now()`; never interpreted here. */
  datatype Timestamp = Timestamp(year: int, month: int, day: int, hour: int, minute: int)

  /** The value a map holds for `k`, or None (Django's `.filter(pk=k).first()`). */
  function Lookup<K, V>(m: map<K, V>, k: K): (r: Option<V>)
    ensures r.Some? <==> k in m
    ensures r.Some? ==> r.value == m[k]
  {
    if k in m then Some(m[k]) else None
  }

  /** `[y for x in xs for y in f(x)]`: each element's contribution, in order. */
  function FlatMap<T, U>(f: T -> seq<U>, xs: seq<T>): seq<U>
    decreases |xs|
  {
    if |xs| == 0 then [] else f(xs[0]) + FlatMap(f, xs[1..])
  }

  /** Mapping a concatenation maps each half in turn. */
  lemma {:induction false} FlatMapAppend<T, U>(f: T -> seq<U>, a: seq<T>, b: seq<T>)
    ensures FlatMap(f, a + b) == FlatMap(f, a) + FlatMap(f, b)
    decreases |a|
  {
    if |a| == 0 {
      assert a + b == b;
    } else {
      FlatMapAppend(f, a[1..], b);
      assert (a + b)[0] == a[0] && (a + b)[1..] == a[1..] + b;
    }
  }
}

=== FILE: decimal.dfy ===
/** Python's `str(n)` and `int(s)` on non-negative integers written in decimal. */
module Decimal {

  predicate IsDigit(c: char) {
    '0' <= c <= '9'
  }

  predicate AllDigits(s: string) {
    forall k :: 0 <= k < |s| ==> IsDigit(s[k])
  }

  function DigitChar(d: nat): (c: char)
    requires d < 10
    ensures IsDigit(c)
  {
    "0123456789"[d]
  }

  function DigitValue(c: char): (d: nat)
    requires IsDigit(c)
    ensures d < 10
  {
    (c as int) - ('0' as int)
  }

  lemma DigitRoundTrip(d: nat)
    requires d < 10
    ensures DigitValue(DigitChar(d)) == d
  {
  }

  /** `str(n)`: the shortest decimal numeral of `n` (no sign, no leading zero). */
  function NatToString(n: nat): (s: string)
    ensures |s| >= 1 && AllDigits(s)
    ensures |s| > 1 ==> s[0] != '0'
    decreases n
  {
    if n < 10 then [DigitChar(n)] else NatToString(n / 10) + [DigitChar(n % 10)]
  }

  /** `int(s)` for a non-empty string of decimal digits (leading zeros allowed, as in Python). */
  function ParseDigits(s: string): nat
    requires AllDigits(s)
    decreases |s|
  {
    if |s| == 0 then 0 else 10 * ParseDigits(s[..|s| - 1]) + DigitValue(s[|s| - 1])
  }

  /** `int(str(n)) == n`. */
  lemma {:induction false} ParseNatToString(n: nat)
    ensures ParseDigits(NatToString(n)) == n
    decreases n
  {
    var s := NatToString(n);
    if n < 10 {
      DigitRoundTrip(n);
    } else {
      ParseNatToString(n / 10);
      assert s[..|s| - 1] == NatToString(n / 10);
      DigitRoundTrip(n % 10);
    }
  }

  /** Distinct numbers have distinct numerals. */
  lemma NatToStringInjective(a: nat, b: nat)
    requires NatToString(a) == NatToString(b)
    ensures a == b
  {
    ParseNatToString(a);
    ParseNatToString(b);
  }

  function Pow10(k: nat): (p: nat)
    ensures p >= 1
  {
    if k == 0 then 1 else 10 * Pow10(k - 1)
  }

  /** A positive multiple of a positive `d` is at least `d`. */
  lemma {:induction false} PositiveMultiple(d: nat, k: nat)
    requires d > 0 && k > 0
    ensures d * k >= d
    decreases k
  {
    if k > 1 {
      PositiveMultiple(d, k - 1);
      assert d * k == d * (k - 1) + d;
    }
  }

  /** A non-zero multiple of `d` is at least `d` away from zero. */
  lemma MultipleGap(d: nat, k: int)
    requires d > 0
    ensures k == 0 || d * k >= d || d * k <= -(d as int)
  {
    if k > 0 {
      PositiveMultiple(d, k);
    } else if k < 0 {
      PositiveMultiple(d, -k);
      assert d * k == -(d * -k);
    }
  }

  /** Euclidean division is determined by its quotient-remainder decomposition. */
  lemma DivUnique(n: nat, d: nat, q: nat, r: nat)
    requires d > 0 && n == d * q + r && r < d
    ensures n / d == q
  {
    var q' := n / d;
    var r' := n % d;
    assert d * (q' - q) == r - r';
    MultipleGap(d, q' - q);
  }

  /** `(n / a) / b == n / (a * b)` for positive divisors. */
  lemma DivDiv(n: nat, a: nat, b: nat)
    requires a > 0 && b > 0
    ensures (n / a) / b == n / (a * b)
  {
    var q := n / a;
    var q2 := q / b;
    var r1 := n % a;
    var r2 := q % b;
    Nest(n, a, b, q, q2, r1, r2);
    DivUnique(n, a * b, q2, a * r2 + r1);
  }

  /** Nesting two quotient-remainder decompositions gives one by the product. */
  lemma Nest(n: nat, a: nat, b: nat, q: nat, q2: nat, r1: nat, r2: nat)
    requires n == a * q + r1 && r1 < a
    requires q == b * q2 + r2 && r2 < b
    ensures n == (a * b) * q2 + (a * r2 + r1) && a * r2 + r1 < a * b
  {
    Distribute(a, b * q2, r2);
    assert a * (b * q2) == (a * b) * q2;
    Distribute(a, r2, b - 1 - r2);
    Distribute(a, b - 1, 1);
  }

  lemma Distribute(a: nat, x: nat, y: nat)
    ensures a * (x + y) == a * x + a * y
  {
  }

  /** The first two characters of `str(n)` spell `n` divided by ten to the number of remaining digits. */
  lemma {:induction false} LeadingTwoDigits(n: nat)
    requires n >= 10
    ensures var s := NatToString(n);
      |s| >= 2 && ParseDigits(s[..2]) == n / Pow10(|s| - 2)
    decreases n
  {
    var s := NatToString(n);
    var t := NatToString(n / 10);
    if n < 100 {
      assert s[..2] == s;
      ParseNatToString(n);
    } else {
      LeadingTwoDigits(n / 10);
      assert s == t + [DigitChar(n % 10)];
      assert s[..2] == t[..2];
      var p := Pow10(|t| - 2);
      assert Pow10(|s| - 2) == 10 * p;
      DivDiv(n, 10, p);
      assert ParseDigits(t[..2]) == (n / 10) / p;
    }
  }

  /** `str(n)` has `k + 1` digits exactly when `10^k <= n < 10^(k+1)`. */
  lemma {:induction false} NumeralLength(n: nat, k: nat)
    requires Pow10(k) <= n < Pow10(k + 1)
    ensures |NatToString(n)| == k + 1
    decreases k
  {
    if k > 0 {
      assert Pow10(k) == 10 * Pow10(k - 1);
      NumeralLength(n / 10, k - 1);
    }
  }
}

=== FILE: ibge.dfy ===
/**
 * `sync_ibge_localidades`: regions, states and municipalities fetched from the IBGE
 * localities API and upserted by their IBGE code, in the order regions, states,
 * municipalities. The API answers are inputs; None stands for a failed request.
 */
module Ibge {
  import opened Basics
  import Decimal
  import Upsert

  datatype Regiao = Regiao(sigla: string, nome: string)
  /** A state row; `regiao` is the code of its region. */
  datatype Estado = Estado(sigla: string, nome: string, regiao: nat)
  /** A municipality row; `estado` is the code of its state. */
  datatype Municipio = Municipio(nome: string, estado: nat, isCapital: bool)

  /** The stored tables, each keyed by IBGE code. */
  datatype Store = Store(regioes: map<nat, Regiao>, estados: map<nat, Estado>, municipios: map<nat, Municipio>)

  /** The API's records: `{"id", "sigla", "nome"}`, plus `"regiao": {"id"}` for a state. */
  datatype RegiaoData = RegiaoData(id: nat, sigla: string, nome: string)
  datatype EstadoData = EstadoData(id: nat, sigla: string, nome: string, regiao: nat)
  datatype MunicipioData = MunicipioData(id: nat, nome: string)

  /** What the three list endpoints returned. */
  datatype Api = Api(regioes: Option<seq<RegiaoData>>, estados: Option<seq<EstadoData>>, municipios: Option<seq<MunicipioData>>)

  /** A phase either aborted on an empty or failed API answer, reported its total, or was
      stopped by a write the database refused: the `IntegrityError` of the unique `sigla` of a
      region or state, or of `unique_capital_per_state`, is not among the exceptions the loops
      catch, so it ends the command, with the rows written before it kept. */
  datatype PhaseReport = Aborted | Synced(total: nat) | Crashed

  // ---------------------------------------------------------------------------------------
  // Phase selection
  // ---------------------------------------------------------------------------------------

  datatype Phase = Regioes | Estados | Municipios

  function Rank(p: Phase): nat {
    match p
    case Regioes => 0
    case Estados => 1
    case Municipios => 2
  }

  /** The phases `handle` runs for the flags `--apenas-regioes`, `--apenas-estados` and
      `--apenas-municipios`. */
  function Phases(apenasRegioes: bool, apenasEstados: bool, apenasMunicipios: bool): (ps: seq<Phase>)
    ensures !apenasRegioes && !apenasEstados && !apenasMunicipios ==> ps == [Regioes, Estados, Municipios]
    ensures apenasRegioes || apenasEstados || apenasMunicipios ==>
      && (Regioes in ps <==> apenasRegioes)
      && (Estados in ps <==> apenasEstados)
      && (Municipios in ps <==> apenasMunicipios)
    ensures forall i, j :: 0 <= i < j < |ps| ==> Rank(ps[i]) < Rank(ps[j])
  {
    var all := !(apenasRegioes || apenasEstados || apenasMunicipios);
    (if all || apenasRegioes then [Regioes] else [])
    + (if all || apenasEstados then [Estados] else [])
    + (if all || apenasMunicipios then [Municipios] else [])
  }

  // ---------------------------------------------------------------------------------------
  // State code of a municipality: `int(str(id)[:2])`.
  // ---------------------------------------------------------------------------------------

  function StateCode(id: nat): nat {
    var s := Decimal.NatToString(id);
    Decimal.ParseDigits(if |s| <= 2 then s else s[..2])
  }

  /** For the seven-digit codes IBGE assigns to municipalities, the state code is `id / 100000`. */
  lemma StateCodeOfSevenDigits(id: nat)
    requires 1000000 <= id < 10000000
    ensures StateCode(id) == id / 100000
  {
    Decimal.NumeralLength(id, 6);
    Decimal.LeadingTwoDigits(id);
    assert Decimal.Pow10(5) == 100000;
  }

  // ---------------------------------------------------------------------------------------
  // Capitals
  // ---------------------------------------------------------------------------------------

  /** The set `capitais` as the command writes it: the entry meant for Vitória (ES) is
      3170206, whose first two digits name Minas Gerais. */
  const CapitalsAsWritten: set<nat> := {
    1100205, 1200401, 1302603, 1400100, 1501402, 1600303, 1721000,
    2111300, 2211001, 2304400, 2408102, 2507507, 2611606, 2704302,
    2800308, 2927408, 3106200, 3170206, 3304557, 3550308, 4106902,
    4205407, 4314902, 5002704, 5103403, 5208707, 5300108
  }

  /** IBGE codes of the 27 capitals, with Vitória (ES) under its own code 3205309. */
  const Capitals: set<nat> := {
    1100205, 1200401, 1302603, 1400100, 1501402, 1600303, 1721000,
    2111300, 2211001, 2304400, 2408102, 2507507, 2611606, 2704302,
    2800308, 2927408, 3106200, 3205309, 3304557, 3550308, 4106902,
    4205407, 4314902, 5002704, 5103403, 5208707, 5300108
  }

  /** The capital of each state, by state code; 0 for a code that is not a state. */
  function CapitalOf(estado: nat): nat {
    match estado
    case 11 => 1100205  // Porto Velho - RO
    case 12 => 1200401  // Rio Branco - AC
    case 13 => 1302603  // Manaus - AM
    case 14 => 1400100  // Boa Vista - RR
    case 15 => 1501402  // Belém - PA
    case 16 => 1600303  // Macapá - AP
    case 17 => 1721000  // Palmas - TO
    case 21 => 2111300  // São Luís - MA
    case 22 => 2211001  // Teresina - PI
    case 23 => 2304400  // Fortaleza - CE
    case 24 => 2408102  // Natal - RN
    case 25 => 2507507  // João Pessoa - PB
    case 26 => 2611606  // Recife - PE
    case 27 => 2704302  // Maceió - AL
    case 28 => 2800308  // Aracaju - SE
    case 29 => 2927408  // Salvador - BA
    case 31 => 3106200  // Belo Horizonte - MG
    case 32 => 3205309  // Vitória - ES
    case 33 => 3304557  // Rio de Janeiro - RJ
    case 35 => 3550308  // São Paulo - SP
    case 41 => 4106902  // Curitiba - PR
    case 42 => 4205407  // Florianópolis - SC
    case 43 => 4314902  // Porto Alegre - RS
    case 50 => 5002704  // Campo Grande - MS
    case 51 => 5103403  // Cuiabá - MT
    case 52 => 5208707  // Goiânia - GO
    case 53 => 5300108  // Brasília - DF
    case _ => 0
  }

  /** Each capital has seven digits and is the capital of the state its first two digits name. */
  lemma CapitalsByState()
    ensures forall c :: c in Capitals ==> 1000000 <= c < 10000000 && CapitalOf(c / 100000) == c
  {
  }

  /** No two capitals lie in the same state. */
  lemma CapitalsInDistinctStates()
    ensures forall a, b :: a in Capitals && b in Capitals && a != b ==> StateCode(a) != StateCode(b)
  {
    CapitalsByState();
    forall a, b | a in Capitals && b in Capitals && a != b
      ensures StateCode(a) != StateCode(b)
    {
      StateCodeOfSevenDigits(a);
      StateCodeOfSevenDigits(b);
    }
  }

  /** The `unique_capital_per_state` constraint: at most one capital per state. */
  ghost predicate OneCapitalPerState(ms: map<nat, Municipio>) {
    forall a, b :: a in ms && b in ms && a != b && ms[a].isCapital && ms[b].isCapital ==> ms[a].estado != ms[b].estado
  }

  /** Every capital row is one of the 27 listed capitals, filed under its own code's state,
      which is what the sync writes. */
  ghost predicate CapitalsAsListed(ms: map<nat, Municipio>) {
    forall k :: k in ms && ms[k].isCapital ==> k in Capitals && ms[k].estado == StateCode(k)
  }

  lemma ListedCapitalsAreUnique(ms: map<nat, Municipio>)
    requires CapitalsAsListed(ms)
    ensures OneCapitalPerState(ms)
  {
    CapitalsInDistinctStates();
  }

  // ---------------------------------------------------------------------------------------
  // The three phases
  // ---------------------------------------------------------------------------------------

  function AnyId(x: RegiaoData): bool { true }
  function RegiaoId(x: RegiaoData): nat { x.id }
  function WriteRegiao(prior: Option<Regiao>, x: RegiaoData): Regiao { Regiao(x.sigla, x.nome) }

  /** States whose region is not stored are skipped (`Regiao.DoesNotExist`). */
  function RegionKnown(regioes: map<nat, Regiao>): EstadoData -> bool {
    (x: EstadoData) => x.regiao in regioes
  }
  function EstadoId(x: EstadoData): nat { x.id }
  function WriteEstado(prior: Option<Estado>, x: EstadoData): Estado { Estado(x.sigla, x.nome, x.regiao) }

  /** Municipalities whose state is not stored are skipped (`Estado.DoesNotExist`). */
  function StateKnown(estados: map<nat, Estado>): MunicipioData -> bool {
    (x: MunicipioData) => StateCode(x.id) in estados
  }
  function MunicipioId(x: MunicipioData): nat { x.id }
  /** `update_or_create` defaults: the name, the state of the first two digits, and
      whether the code is in the given capital set. */
  function WriteMunicipio(capitals: set<nat>): (Option<Municipio>, MunicipioData) -> Municipio {
    (prior: Option<Municipio>, x: MunicipioData) => Municipio(x.nome, StateCode(x.id), x.id in capitals)
  }

  function NewRegioes(store: Store, data: seq<RegiaoData>): map<nat, Regiao> {
    Upsert.Apply(store.regioes, data, AnyId, RegiaoId, WriteRegiao)
  }

  function NewEstados(store: Store, data: seq<EstadoData>): map<nat, Estado> {
    Upsert.Apply(store.estados, data, RegionKnown(store.regioes), EstadoId, WriteEstado)
  }

  /** The municipality table after writing `data` with the capital set `capitals`. */
  function NewMunicipios(capitals: set<nat>, store: Store, data: seq<MunicipioData>): map<nat, Municipio> {
    Upsert.Apply(store.municipios, data, StateKnown(store.estados), MunicipioId, WriteMunicipio(capitals))
  }

  function MunicipioOutcomes(capitals: set<nat>, store: Store, data: seq<MunicipioData>): seq<Upsert.Outcome> {
    Upsert.Outcomes(store.municipios, data, StateKnown(store.estados), MunicipioId, WriteMunicipio(capitals))
  }

  /** Writing `x` into table `m` breaks `unique_capital_per_state`: `x` is written as a capital
      and another row is already a capital of the same state. */
  function Clash(capitals: set<nat>, estados: map<nat, Estado>, m: map<nat, Municipio>, x: MunicipioData): bool {
    && StateCode(x.id) in estados
    && x.id in capitals
    && exists k :: k in m && k != x.id && m[k].isCapital && m[k].estado == StateCode(x.id)
  }

  function MunicipioClash(capitals: set<nat>, estados: map<nat, Estado>): (map<nat, Municipio>, MunicipioData) -> bool {
    (m: map<nat, Municipio>, x: MunicipioData) => Clash(capitals, estados, m, x)
  }

  /** The first record, from `j` on, whose write the database refuses; `|data|` if none. */
  function FirstClash(capitals: set<nat>, store: Store, data: seq<MunicipioData>, j: nat): (i: nat)
    requires j <= |data|
    ensures j <= i <= |data|
    ensures i < |data| ==> Clash(capitals, store.estados, NewMunicipios(capitals, store, data[..i]), data[i])
    ensures forall n :: j <= n < i ==> !Clash(capitals, store.estados, NewMunicipios(capitals, store, data[..n]), data[n])
  {
    Upsert.FirstRefused(store.municipios, data, StateKnown(store.estados), MunicipioId, WriteMunicipio(capitals),
                        MunicipioClash(capitals, store.estados), j)
  }

  /** Writing `x` into `m` breaks the unique index on `Regiao.sigla`: another code already
      holds its sigla. */
  function RegiaoClash(m: map<nat, Regiao>, x: RegiaoData): bool {
    exists k :: k in m && k != x.id && m[k].sigla == x.sigla
  }

  /** The same for `Estado.sigla`; a state whose region is not stored never reaches the write. */
  function EstadoClash(regioes: map<nat, Regiao>): (map<nat, Estado>, EstadoData) -> bool {
    (m: map<nat, Estado>, x: EstadoData) => x.regiao in regioes && exists k :: k in m && k != x.id && m[k].sigla == x.sigla
  }

  /** `sincronizar_regioes`: the length of the list is reported when every write goes through;
      a sigla that another code holds stops the command. */
  function SyncRegioes(store: Store, answer: Option<seq<RegiaoData>>): (r: (Store, PhaseReport))
    ensures answer.None? || answer == Some([]) ==> r == (store, Aborted)
    ensures answer.Some? && answer.value != [] ==> r.1 == Synced(|answer.value|) || r.1 == Crashed
    ensures r.1.Crashed? <==> answer.Some? && Upsert.SomeRefused(store.regioes, answer.value, AnyId, RegiaoId, WriteRegiao, RegiaoClash)
    ensures answer.Some? && r.1.Synced? ==> r.0.regioes == NewRegioes(store, answer.value)
    ensures r.0.estados == store.estados && r.0.municipios == store.municipios
  {
    if answer.None? || answer.value == [] then (store, Aborted)
    else
      var data := answer.value;
      var i := Upsert.FirstRefused(store.regioes, data, AnyId, RegiaoId, WriteRegiao, RegiaoClash, 0);
      if i < |data| then (store.(regioes := NewRegioes(store, data[..i])), Crashed)
      else (store.(regioes := NewRegioes(store, data)), Synced(|data|))
  }

  /** `sincronizar_estados`: the reported total is the length of the list, skipped states
      included, when every write goes through; a sigla that another code holds stops the
      command (only `Regiao.DoesNotExist` is caught). */
  function SyncEstados(store: Store, answer: Option<seq<EstadoData>>): (r: (Store, PhaseReport))
    ensures answer.None? || answer == Some([]) ==> r == (store, Aborted)
    ensures answer.Some? && answer.value != [] ==> r.1 == Synced(|answer.value|) || r.1 == Crashed
    ensures r.1.Crashed? <==> answer.Some? && Upsert.SomeRefused(store.estados, answer.value, RegionKnown(store.regioes), EstadoId, WriteEstado, EstadoClash(store.regioes))
    ensures answer.Some? && r.1.Synced? ==> r.0.estados == NewEstados(store, answer.value)
    ensures r.0.regioes == store.regioes && r.0.municipios == store.municipios
  {
    if answer.None? || answer.value == [] then (store, Aborted)
    else
      var data := answer.value;
      var i := Upsert.FirstRefused(store.estados, data, RegionKnown(store.regioes), EstadoId, WriteEstado, EstadoClash(store.regioes), 0);
      if i < |data| then (store.(estados := NewEstados(store, data[..i])), Crashed)
      else (store.(estados := NewEstados(store, data)), Synced(|data|))
  }

  /** Some record's write is refused, given the writes before it. */
  predicate SomeClash(capitals: set<nat>, store: Store, data: seq<MunicipioData>) {
    exists i :: 0 <= i < |data| && Clash(capitals, store.estados, NewMunicipios(capitals, store, data[..i]), data[i])
  }

  /** `sincronizar_municipios` with the capital set `capitals`: `contador` counts the
      municipalities actually upserted; a refused write stops the command. */
  function SyncMunicipios(capitals: set<nat>, store: Store, answer: Option<seq<MunicipioData>>): (r: (Store, PhaseReport))
    ensures answer.None? || answer == Some([]) ==> r == (store, Aborted)
    ensures answer.Some? && answer.value != [] ==> !r.1.Aborted?
    ensures r.1.Crashed? <==> answer.Some? && SomeClash(capitals, store, answer.value)
    ensures answer.Some? && r.1.Synced? ==> r.0.municipios == NewMunicipios(capitals, store, answer.value)
    ensures r.0.regioes == store.regioes && r.0.estados == store.estados
  {
    if answer.None? || answer.value == [] then (store, Aborted)
    else
      var data := answer.value;
      var i := FirstClash(capitals, store, data, 0);
      if i < |data| then (store.(municipios := NewMunicipios(capitals, store, data[..i])), Crashed)
      else
        var os := MunicipioOutcomes(capitals, store, data);
        (store.(municipios := NewMunicipios(capitals, store, data)), Synced(Upsert.Count(os, Upsert.Created) + Upsert.Count(os, Upsert.Updated)))
  }

  function RunPhase(capitals: set<nat>, store: Store, api: Api, p: Phase): (Store, PhaseReport) {
    match p
    case Regioes => SyncRegioes(store, api.regioes)
    case Estados => SyncEstados(store, api.estados)
    case Municipios => SyncMunicipios(capitals, store, api.municipios)
  }

  /** The phases in order; a crashed phase ends the run. */
  function RunPhases(capitals: set<nat>, store: Store, api: Api, ps: seq<Phase>): (r: (Store, seq<PhaseReport>))
    ensures |r.1| <= |ps|
    ensures |r.1| < |ps| ==> |r.1| > 0 && r.1[|r.1| - 1] == Crashed
    ensures forall i :: 0 <= i < |r.1| - 1 ==> r.1[i] != Crashed
    decreases |ps|
  {
    if |ps| == 0 then (store, [])
    else
      var (next, report) := RunPhase(capitals, store, api, ps[0]);
      if report.Crashed? then (next, [report])
      else
        var (last, reports) := RunPhases(capitals, next, api, ps[1..]);
        (last, [report] + reports)
  }

  /** A region whose sigla another stored code already holds stops the command: with
      `{1: ("N", "Norte")}` stored, the answer `[(2, "N", "Nordeste")]` is refused. */
  lemma RegiaoSiglaTaken(store: Store, k: nat, x: RegiaoData)
    requires k in store.regioes && k != x.id && store.regioes[k].sigla == x.sigla
    ensures SyncRegioes(store, Some([x])).1 == Crashed
    ensures SyncRegioes(store, Some([x])).0 == store
  {
    assert [x][..0] == [];
    assert RegiaoClash(NewRegioes(store, [x][..0]), [x][0]);
  }

  /** The same for a state whose region is stored. */
  lemma EstadoSiglaTaken(store: Store, k: nat, x: EstadoData)
    requires x.regiao in store.regioes
    requires k in store.estados && k != x.id && store.estados[k].sigla == x.sigla
    ensures SyncEstados(store, Some([x])).1 == Crashed
    ensures SyncEstados(store, Some([x])).0 == store
  {
    assert [x][..0] == [];
    assert EstadoClash(store.regioes)(NewEstados(store, [x][..0]), [x][0]);
  }

  /** `handle`, with the capital set as the command writes it. */
  function Handle(store: Store, api: Api, apenasRegioes: bool, apenasEstados: bool, apenasMunicipios: bool): (Store, seq<PhaseReport>) {
    RunPhases(CapitalsAsWritten, store, api, Phases(apenasRegioes, apenasEstados, apenasMunicipios))
  }

  // ---------------------------------------------------------------------------------------
  // Properties of the phases
  // ---------------------------------------------------------------------------------------

  /** Regions: a code in the answer holds the fields of its last record; other codes are untouched. */
  lemma RegioesUpserted(store: Store, data: seq<RegiaoData>, k: nat)
    ensures var r := NewRegioes(store, data);
      && (forall i :: 0 <= i < |data| && data[i].id == k && (forall j :: i < j < |data| ==> data[j].id != k) ==>
            k in r && r[k] == Regiao(data[i].sigla, data[i].nome))
      && ((forall i :: 0 <= i < |data| ==> data[i].id != k) ==>
            (k in r <==> k in store.regioes) && (k in r ==> r[k] == store.regioes[k]))
  {
    Upsert.ApplyAt(store.regioes, data, AnyId, RegiaoId, WriteRegiao, k);
  }

  /** States: a code holds the fields of its last record whose region is stored; a state whose
      region is unknown is skipped without stopping the loop; codes with no such record are untouched. */
  lemma EstadosUpserted(store: Store, data: seq<EstadoData>, k: nat)
    ensures var r := NewEstados(store, data);
      && (forall i :: (0 <= i < |data| && data[i].id == k && data[i].regiao in store.regioes
            && (forall j :: i < j < |data| ==> !(data[j].id == k && data[j].regiao in store.regioes))) ==>
            k in r && r[k] == Estado(data[i].sigla, data[i].nome, data[i].regiao))
      && ((forall i :: 0 <= i < |data| && data[i].id == k ==> data[i].regiao !in store.regioes) ==>
            (k in r <==> k in store.estados) && (k in r ==> r[k] == store.estados[k]))
  {
    Upsert.ApplyAt(store.estados, data, RegionKnown(store.regioes), EstadoId, WriteEstado, k);
  }

  /** Municipalities: a code whose state is stored holds its last record's name, the state
      read from its first two digits, and whether it is in the capital set; other codes are
      untouched. */
  lemma MunicipiosUpserted(capitals: set<nat>, store: Store, data: seq<MunicipioData>, k: nat)
    ensures var r := NewMunicipios(capitals, store, data);
      && (forall i :: 0 <= i < |data| && data[i].id == k && (forall j :: i < j < |data| ==> data[j].id != k) ==>
            if StateCode(k) in store.estados
            then k in r && r[k] == Municipio(data[i].nome, StateCode(k), k in capitals)
            else (k in r <==> k in store.municipios) && (k in r ==> r[k] == store.municipios[k]))
      && ((forall i :: 0 <= i < |data| ==> data[i].id != k) ==>
            (k in r <==> k in store.municipios) && (k in r ==> r[k] == store.municipios[k]))
  {
    Upsert.ApplyAt(store.municipios, data, StateKnown(store.estados), MunicipioId, WriteMunicipio(capitals), k);
  }

  /** A municipality is counted as skipped exactly when its state is not stored. */
  lemma MunicipioSkipped(capitals: set<nat>, store: Store, data: seq<MunicipioData>, i: nat)
    requires i < |data|
    ensures |MunicipioOutcomes(capitals, store, data)| == |data|
    ensures MunicipioOutcomes(capitals, store, data)[i] == Upsert.Rejected <==> StateCode(data[i].id) !in store.estados
  {
    Upsert.OutcomeAt(store.municipios, data, StateKnown(store.estados), MunicipioId, WriteMunicipio(capitals), i);
  }

  /** When the phase completes, the reported municipality total plus the skipped
      municipalities is the length of the list. */
  lemma MunicipioTotal(capitals: set<nat>, store: Store, data: seq<MunicipioData>)
    ensures SyncMunicipios(capitals, store, Some(data)).1.Synced? ==>
      SyncMunicipios(capitals, store, Some(data)).1.total
      + Upsert.Count(MunicipioOutcomes(capitals, store, data), Upsert.Rejected) == |data|
  {
    Upsert.CountsSum(MunicipioOutcomes(capitals, store, data));
  }

  /** The municipality writes keep every capital row one of the listed capitals in its own state. */
  lemma MunicipiosKeepCapitalsListed(store: Store, data: seq<MunicipioData>)
    requires CapitalsAsListed(store.municipios)
    ensures CapitalsAsListed(NewMunicipios(Capitals, store, data))
  {
    var r := NewMunicipios(Capitals, store, data);
    forall k | k in r && r[k].isCapital
      ensures k in Capitals && r[k].estado == StateCode(k)
    {
      Upsert.ApplyAt(store.municipios, data, StateKnown(store.estados), MunicipioId, WriteMunicipio(Capitals), k);
    }
  }

  /** With the corrected set, a table of listed capitals never refuses a write. */
  lemma ListedNeverClash(estados: map<nat, Estado>, m: map<nat, Municipio>, x: MunicipioData)
    requires CapitalsAsListed(m)
    ensures !Clash(Capitals, estados, m, x)
  {
    CapitalsInDistinctStates();
    forall k | k in m && k != x.id && m[k].isCapital
      ensures x.id !in Capitals || m[k].estado != StateCode(x.id)
    {
    }
  }

  /** With the corrected set, the municipality phase never stops on a refused write. */
  lemma MunicipiosNeverCrash(store: Store, data: seq<MunicipioData>)
    requires CapitalsAsListed(store.municipios)
    ensures FirstClash(Capitals, store, data, 0) == |data|
  {
    var i := FirstClash(Capitals, store, data, 0);
    if i < |data| {
      MunicipiosKeepCapitalsListed(store, data[..i]);
      ListedNeverClash(store.estados, NewMunicipios(Capitals, store, data[..i]), data[i]);
    }
  }

  /** With the corrected set, the municipality phase completes and keeps the capitals listed. */
  lemma MunicipioPhaseListed(store: Store, answer: Option<seq<MunicipioData>>)
    requires CapitalsAsListed(store.municipios)
    ensures !SyncMunicipios(Capitals, store, answer).1.Crashed?
    ensures CapitalsAsListed(SyncMunicipios(Capitals, store, answer).0.municipios)
  {
    if answer.Some? {
      MunicipiosKeepCapitalsListed(store, answer.value);
      MunicipiosNeverCrash(store, answer.value);
    }
  }

  /** A whole run with the corrected set, with any flags and any API answers, is never stopped
      by its municipality phase, and flags only listed capitals, each under its own state, when
      the table started that way. */
  lemma {:induction false} RunKeepsCapitalsListed(store: Store, api: Api, ps: seq<Phase>)
    requires CapitalsAsListed(store.municipios)
    ensures CapitalsAsListed(RunPhases(Capitals, store, api, ps).0.municipios)
    ensures forall i :: 0 <= i < |RunPhases(Capitals, store, api, ps).1| && RunPhases(Capitals, store, api, ps).1[i] == Crashed ==>
      ps[i] != Municipios
    decreases |ps|
  {
    if |ps| > 0 {
      var (next, report) := RunPhase(Capitals, store, api, ps[0]);
      if ps[0] == Municipios {
        MunicipioPhaseListed(store, api.municipios);
      }
      assert CapitalsAsListed(next.municipios);
      if !report.Crashed? {
        RunKeepsCapitalsListed(next, api, ps[1..]);
        var reports := RunPhases(Capitals, next, api, ps[1..]).1;
        assert RunPhases(Capitals, store, api, ps).1 == [report] + reports;
        assert forall i :: 0 < i < |ps| ==> ps[i] == ps[1..][i - 1];
      }
    }
  }

  /** With the corrected set, a whole run, with any flags and any API answers, is never stopped
      by its municipality phase and keeps the constraint of one capital per state, starting
      from a table whose capitals are the listed ones (an empty table, for one). */
  lemma RunKeepsOneCapitalPerState(store: Store, api: Api, ps: seq<Phase>)
    requires CapitalsAsListed(store.municipios)
    ensures forall i :: 0 <= i < |RunPhases(Capitals, store, api, ps).1| && RunPhases(Capitals, store, api, ps).1[i] == Crashed ==>
      ps[i] != Municipios
    ensures OneCapitalPerState(RunPhases(Capitals, store, api, ps).0.municipios)
  {
    RunKeepsCapitalsListed(store, api, ps);
    ListedCapitalsAreUnique(RunPhases(Capitals, store, api, ps).0.municipios);
  }

  // ---------------------------------------------------------------------------------------
  // The capital set as written
  // ---------------------------------------------------------------------------------------

  /** With any capital set that lists two codes of one stored state, syncing those two
      municipalities stops the command: the second write, or an earlier one, is refused. */
  lemma TwoListedCapitalsClash(store: Store, capitals: set<nat>, a: MunicipioData, b: MunicipioData)
    requires a.id != b.id && a.id in capitals && b.id in capitals
    requires StateCode(a.id) == StateCode(b.id) && StateCode(a.id) in store.estados
    ensures SyncMunicipios(capitals, store, Some([a, b])).1 == Crashed
  {
    var data := [a, b];
    var w := WriteMunicipio(capitals);
    var m := NewMunicipios(capitals, store, data[..1]);
    if !Clash(capitals, store.estados, NewMunicipios(capitals, store, data[..0]), data[0]) {
      assert data[..1] == [a];
      Upsert.ApplyAt(store.municipios, [a], StateKnown(store.estados), MunicipioId, w, a.id);
      assert Upsert.LastWriter([a], StateKnown(store.estados), MunicipioId, a.id) == 0;
      assert a.id in m && m[a.id].isCapital && m[a.id].estado == StateCode(b.id);
      assert Clash(capitals, store.estados, m, data[1]);
    }
  }

  /** With the set as written, syncing Belo Horizonte (3106200) and 3170206 while Minas Gerais
      (31) is stored asks for two capitals of Minas Gerais: `unique_capital_per_state` refuses
      one of the writes and the command stops, whatever the table held before. */
  lemma AsWrittenTwoCapitalsInMinasGerais(store: Store, first: string, second: string)
    requires 31 in store.estados
    ensures var data := [MunicipioData(3106200, first), MunicipioData(3170206, second)];
      SyncMunicipios(CapitalsAsWritten, store, Some(data)).1 == Crashed
  {
    StateCodeOfSevenDigits(3106200);
    StateCodeOfSevenDigits(3170206);
    assert 3106200 in CapitalsAsWritten && 3170206 in CapitalsAsWritten;
    TwoListedCapitalsClash(store, CapitalsAsWritten, MunicipioData(3106200, first), MunicipioData(3170206, second));
  }
}

=== FILE: lexorder.dfy ===
/**
 * Python's ordering of `str` values: code point by code point, a proper prefix first.
 * This is the order `sorted()` uses and, under a binary collation, the order of
 * Django's `order_by` on a CharField.
 */
module LexOrder {

  predicate LexLe(a: string, b: string)
    decreases |a|
  {
    |a| == 0 || (|b| > 0 && (a[0] < b[0] || (a[0] == b[0] && LexLe(a[1..], b[1..]))))
  }

  predicate LexLt(a: string, b: string) {
    LexLe(a, b) && a != b
  }

  lemma {:induction false} LexLeReflexive(a: string)
    ensures LexLe(a, a)
    decreases |a|
  {
    if |a| > 0 {
      LexLeReflexive(a[1..]);
    }
  }

  lemma {:induction false} LexLeTotal(a: string, b: string)
    ensures LexLe(a, b) || LexLe(b, a)
    decreases |a|
  {
    if |a| > 0 && |b| > 0 && a[0] == b[0] {
      LexLeTotal(a[1..], b[1..]);
    }
  }

  lemma {:induction false} LexLeAntisymmetric(a: string, b: string)
    requires LexLe(a, b) && LexLe(b, a)
    ensures a == b
    decreases |a|
  {
    if |a| > 0 {
      LexLeAntisymmetric(a[1..], b[1..]);
      assert a == [a[0]] + a[1..];
      assert b == [b[0]] + b[1..];
    }
  }

  lemma {:induction false} LexLeTransitive(a: string, b: string, c: string)
    requires LexLe(a, b) && LexLe(b, c)
    ensures LexLe(a, c)
    decreases |a|
  {
    if |a| > 0 && a[0] == b[0] && b[0] == c[0] {
      LexLeTransitive(a[1..], b[1..], c[1..]);
    }
  }

  /** The least element of a non-empty finite set of strings. */
  method Least(s: set<string>) returns (m: string)
    requires s != {}
    ensures m in s
    ensures forall x :: x in s ==> LexLe(m, x)
  {
    m :| m in s;
    LexLeReflexive(m);
    var rest := s - {m};
    var seen := {m};
    while rest != {}
      invariant seen + rest == s
      invariant m in seen
      invariant forall x :: x in seen ==> LexLe(m, x)
      decreases rest
    {
      var x :| x in rest;
      LexLeTotal(m, x);
      if !LexLe(m, x) {
        forall y | y in seen
          ensures LexLe(x, y)
        {
          LexLeTransitive(x, m, y);
        }
        LexLeReflexive(x);
        m := x;
      }
      seen := seen + {x};
      rest := rest - {x};
    }
  }

  predicate StrictlySorted(r: seq<string>) {
    forall i, j :: 0 <= i < j < |r| ==> LexLt(r[i], r[j])
  }

  /** `sorted(s)` for a set of strings: every element once, in increasing order. */
  method Sorted(s: set<string>) returns (r: seq<string>)
    ensures StrictlySorted(r)
    ensures forall x :: x in s <==> x in r
    ensures |r| == |s|
  {
    r := [];
    var rest := s;
    while rest != {}
      invariant StrictlySorted(r)
      invariant forall x :: x in s <==> x in r || x in rest
      invariant forall i :: 0 <= i < |r| ==> r[i] !in rest
      invariant forall i, y :: 0 <= i < |r| && y in rest ==> LexLt(r[i], y)
      invariant |r| + |rest| == |s|
      decreases rest
    {
      var m := Least(rest);
      rest := rest - {m};
      r := r + [m];
    }
  }
}

=== FILE: migrate.dfy ===
/**
 * `migrate_tipos_proposicao`: fills the `tipo_proposicao` foreign key of every proposition
 * that has none, from its legacy `tipo` text, choosing among the types with that sigla the
 * one whose code sorts first.
 */
module MigrateTipos {
  import opened Basics
  import LexOrder
  import TiposSync

  /** A `Proposicao` row: the legacy `tipo` text and the foreign key, given as the `cod`
      of the referenced `TipoProposicao` (None is NULL). */
  datatype Proposicao = Proposicao(id: nat, tipo: string, tipoProposicao: Option<string>)

  /** The queryset `Q(tipo_proposicao__isnull=True) & ~Q(tipo='')`. */
  predicate Selected(p: Proposicao) {
    p.tipoProposicao.None? && p.tipo != ""
  }

  /** Codes of the types whose sigla is `sigla`. */
  function Matching(tipos: map<string, TiposSync.TipoProposicao>, sigla: string): (cs: set<string>)
    ensures forall c :: c in cs <==> c in tipos && tipos[c].sigla == sigla
  {
    set c | c in tipos && tipos[c].sigla == sigla
  }

  /** `filter(sigla=...).order_by('cod').first()`: `cod` is a CharField, so the order is
      textual ("10" sorts before "9"). */
  ghost predicate IsFirstCod(tipos: map<string, TiposSync.TipoProposicao>, sigla: string, c: string) {
    c in Matching(tipos, sigla) && forall d :: d in Matching(tipos, sigla) ==> LexOrder.LexLe(c, d)
  }

  /** The first code is determined: two candidates are the same code. */
  lemma FirstCodUnique(tipos: map<string, TiposSync.TipoProposicao>, sigla: string, c: string, d: string)
    requires IsFirstCod(tipos, sigla, c) && IsFirstCod(tipos, sigla, d)
    ensures c == d
  {
    LexOrder.LexLeAntisymmetric(c, d);
  }

  /** Which branch of the loop a proposition takes. */
  datatype Kind = Skipped | Migrated | NotFound | Failed

  /** A selected proposition with a matching type is migrated unless its `save()` raises
      (`failing` holds the ids whose save raises); a dry run never saves. */
  function KindOf(tipos: map<string, TiposSync.TipoProposicao>, p: Proposicao, dryRun: bool, failing: set<nat>): Kind {
    if !Selected(p) then Skipped
    else if Matching(tipos, p.tipo) == {} then NotFound
    else if !dryRun && p.id in failing then Failed
    else Migrated
  }

  function CountKind(tipos: map<string, TiposSync.TipoProposicao>, ps: seq<Proposicao>, dryRun: bool, failing: set<nat>, k: Kind): nat
    decreases |ps|
  {
    if |ps| == 0 then 0
    else CountKind(tipos, ps[..|ps| - 1], dryRun, failing, k) + (if KindOf(tipos, ps[|ps| - 1], dryRun, failing) == k then 1 else 0)
  }

  /** "Total processado": the three counters add up to the number of selected propositions. */
  lemma {:induction false} CountsCoverSelected(tipos: map<string, TiposSync.TipoProposicao>, ps: seq<Proposicao>, dryRun: bool, failing: set<nat>)
    ensures CountKind(tipos, ps, dryRun, failing, Migrated) + CountKind(tipos, ps, dryRun, failing, NotFound)
      + CountKind(tipos, ps, dryRun, failing, Failed) + CountKind(tipos, ps, dryRun, failing, Skipped) == |ps|
    ensures CountKind(tipos, ps, dryRun, failing, Skipped) == |ps| <==> forall i :: 0 <= i < |ps| ==> !Selected(ps[i])
    decreases |ps|
  {
    if |ps| > 0 {
      CountsCoverSelected(tipos, ps[..|ps| - 1], dryRun, failing);
      var last := ps[|ps| - 1];
      if CountKind(tipos, ps, dryRun, failing, Skipped) == |ps| {
        forall i | 0 <= i < |ps|
          ensures !Selected(ps[i])
        {
          if i < |ps| - 1 {
            assert ps[i] == ps[..|ps| - 1][i];
          }
        }
      }
      if forall i :: 0 <= i < |ps| ==> !Selected(ps[i]) {
        assert forall i :: 0 <= i < |ps| - 1 ==> ps[..|ps| - 1][i] == ps[i];
      }
    }
  }

  /** The summary: nothing selected, or the counters and the sorted siglas without a type. */
  datatype Report = NothingToMigrate | Summary(migradas: nat, naoEncontrados: nat, erros: nat, siglasNaoEncontradas: seq<string>)

  /** The first code among the types with `sigla`. */
  method FirstCod(tipos: map<string, TiposSync.TipoProposicao>, sigla: string) returns (c: Option<string>)
    ensures c.None? <==> Matching(tipos, sigla) == {}
    ensures c.Some? ==> IsFirstCod(tipos, sigla, c.value)
  {
    var cs := Matching(tipos, sigla);
    if cs == {} {
      return None;
    }
    var least := LexOrder.Least(cs);
    return Some(least);
  }

  /** One iteration of the loop: the row as it is left, and the branch taken. */
  method MigrateOne(tipos: map<string, TiposSync.TipoProposicao>, p: Proposicao, dryRun: bool, failing: set<nat>)
    returns (row: Proposicao, kind: Kind)
    ensures kind == KindOf(tipos, p, dryRun, failing)
    ensures kind != Migrated || dryRun ==> row == p
    ensures kind == Migrated && !dryRun ==> Migrates(tipos, p, row)
  {
    row, kind := p, Skipped;
    if Selected(p) {
      var c := FirstCod(tipos, p.tipo);
      if c.None? {
        kind := NotFound;
      } else if !dryRun && p.id in failing {
        kind := Failed;
      } else {
        kind := Migrated;
        if !dryRun {
          row := p.(tipoProposicao := c);
        }
      }
    }
  }

  /** `row` is `p` with its foreign key set to the first type of its sigla. */
  ghost predicate Migrates(tipos: map<string, TiposSync.TipoProposicao>, p: Proposicao, row: Proposicao) {
    && row.id == p.id && row.tipo == p.tipo
    && row.tipoProposicao.Some? && IsFirstCod(tipos, p.tipo, row.tipoProposicao.value)
  }

  /** `missing` is the set of siglas of the propositions among `ps` whose type was not found. */
  ghost predicate MissingSiglas(tipos: map<string, TiposSync.TipoProposicao>, ps: seq<Proposicao>, dryRun: bool, failing: set<nat>, missing: set<string>) {
    forall s :: s in missing <==> exists j :: 0 <= j < |ps| && KindOf(tipos, ps[j], dryRun, failing) == NotFound && ps[j].tipo == s
  }

  /** Appending one proposition extends the counters and the set of missing siglas by its branch. */
  lemma LoopStep(tipos: map<string, TiposSync.TipoProposicao>, ps: seq<Proposicao>, dryRun: bool, failing: set<nat>, missing: set<string>, p: Proposicao)
    requires MissingSiglas(tipos, ps, dryRun, failing, missing)
    ensures var k := KindOf(tipos, p, dryRun, failing);
      MissingSiglas(tipos, ps + [p], dryRun, failing, if k == NotFound then missing + {p.tipo} else missing)
    ensures forall k :: (CountKind(tipos, ps + [p], dryRun, failing, k)
      == CountKind(tipos, ps, dryRun, failing, k) + (if KindOf(tipos, p, dryRun, failing) == k then 1 else 0))
  {
    var qs := ps + [p];
    assert qs[..|ps|] == ps;
    var k := KindOf(tipos, p, dryRun, failing);
    var m := if k == NotFound then missing + {p.tipo} else missing;
    forall s | s in m
      ensures exists j :: 0 <= j < |qs| && KindOf(tipos, qs[j], dryRun, failing) == NotFound && qs[j].tipo == s
    {
      if s in missing {
        var j :| 0 <= j < |ps| && KindOf(tipos, ps[j], dryRun, failing) == NotFound && ps[j].tipo == s;
        assert qs[j] == ps[j];
      } else {
        assert qs[|ps|] == p;
      }
    }
    forall s | exists j :: 0 <= j < |qs| && KindOf(tipos, qs[j], dryRun, failing) == NotFound && qs[j].tipo == s
      ensures s in m
    {
      var j :| 0 <= j < |qs| && KindOf(tipos, qs[j], dryRun, failing) == NotFound && qs[j].tipo == s;
      if j < |ps| {
        assert qs[j] == ps[j];
      }
    }
  }

  /** The loop's counters and the set `tipos_nao_encontrados`. */
  datatype Tally = Tally(migradas: nat, naoEncontrados: nat, erros: nat, missing: set<string>)

  /** `t` counts the branches taken by `ps` and collects the siglas not found. */
  ghost predicate Tallies(tipos: map<string, TiposSync.TipoProposicao>, ps: seq<Proposicao>, dryRun: bool, failing: set<nat>, t: Tally) {
    && t.migradas == CountKind(tipos, ps, dryRun, failing, Migrated)
    && t.naoEncontrados == CountKind(tipos, ps, dryRun, failing, NotFound)
    && t.erros == CountKind(tipos, ps, dryRun, failing, Failed)
    && MissingSiglas(tipos, ps, dryRun, failing, t.missing)
  }

  /** The bookkeeping after one proposition took the branch `kind`. */
  method Record(tipos: map<string, TiposSync.TipoProposicao>, ps: seq<Proposicao>, dryRun: bool, failing: set<nat>,
                t: Tally, p: Proposicao, kind: Kind) returns (t': Tally)
    requires kind == KindOf(tipos, p, dryRun, failing)
    requires Tallies(tipos, ps, dryRun, failing, t)
    ensures Tallies(tipos, ps + [p], dryRun, failing, t')
  {
    LoopStep(tipos, ps, dryRun, failing, t.missing, p);
    match kind {
      case Migrated => t' := t.(migradas := t.migradas + 1);
      case NotFound => t' := t.(naoEncontrados := t.naoEncontrados + 1, missing := t.missing + {p.tipo});
      case Failed => t' := t.(erros := t.erros + 1);
      case Skipped => t' := t;
    }
  }

  /** The loop over the selected propositions: the rows as left, the three counters and the
      set `tipos_nao_encontrados`. */
  method MigrateAll(tipos: map<string, TiposSync.TipoProposicao>, props: seq<Proposicao>, dryRun: bool, failing: set<nat>)
    returns (out: seq<Proposicao>, tally: Tally)
    ensures |out| == |props|
    ensures forall j :: 0 <= j < |props| && (KindOf(tipos, props[j], dryRun, failing) != Migrated || dryRun) ==> out[j] == props[j]
    ensures forall j :: 0 <= j < |props| && !dryRun && KindOf(tipos, props[j], dryRun, failing) == Migrated ==>
      Migrates(tipos, props[j], out[j])
    ensures Tallies(tipos, props, dryRun, failing, tally)
  {
    out := [];
    tally := Tally(0, 0, 0, {});
    for i := 0 to |props|
      invariant |out| == i
      invariant forall j :: 0 <= j < i && (KindOf(tipos, props[j], dryRun, failing) != Migrated || dryRun) ==> out[j] == props[j]
      invariant forall j :: 0 <= j < i && !dryRun && KindOf(tipos, props[j], dryRun, failing) == Migrated ==>
        Migrates(tipos, props[j], out[j])
      invariant Tallies(tipos, props[..i], dryRun, failing, tally)
    {
      var row, kind := MigrateOne(tipos, props[i], dryRun, failing);
      tally := Record(tipos, props[..i], dryRun, failing, tally, props[i], kind);
      assert props[..i + 1] == props[..i] + [props[i]];
      out := out + [row];
    }
    assert props[..|props|] == props;
  }

  /** `handle`. The propositions are the rows in queryset order; the result is the rows as
      the command leaves them, with the summary it prints. */
  method Migrate(tipos: map<string, TiposSync.TipoProposicao>, props: seq<Proposicao>, dryRun: bool, failing: set<nat>)
    returns (out: seq<Proposicao>, report: Report)
    ensures |out| == |props|
    ensures dryRun ==> out == props
    ensures forall i :: 0 <= i < |props| && KindOf(tipos, props[i], dryRun, failing) != Migrated ==> out[i] == props[i]
    ensures forall i :: 0 <= i < |props| && !dryRun && KindOf(tipos, props[i], dryRun, failing) == Migrated ==>
      Migrates(tipos, props[i], out[i])
    ensures report.NothingToMigrate? <==> forall i :: 0 <= i < |props| ==> !Selected(props[i])
    ensures report.Summary? ==>
      && report.migradas == CountKind(tipos, props, dryRun, failing, Migrated)
      && report.naoEncontrados == CountKind(tipos, props, dryRun, failing, NotFound)
      && report.erros == CountKind(tipos, props, dryRun, failing, Failed)
      && LexOrder.StrictlySorted(report.siglasNaoEncontradas)
      && MissingSiglas(tipos, props, dryRun, failing, set s | s in report.siglasNaoEncontradas)
  {
    CountsCoverSelected(tipos, props, dryRun, failing);
    if CountKind(tipos, props, dryRun, failing, Skipped) == |props| {
      return props, NothingToMigrate;
    }
    var tally;
    out, tally := MigrateAll(tipos, props, dryRun, failing);
    if dryRun {
      assert forall j :: 0 <= j < |props| ==> out[j] == props[j];
    }
    var siglas := LexOrder.Sorted(tally.missing);
    assert (set s | s in siglas) == tally.missing;
    report := Summary(tally.migradas, tally.naoEncontrados, tally.erros, siglas);
  }
}

=== FILE: news.dfy ===
/**
 * The news portal's models: `Categoria`, `Noticia` and `Tag`, each of which fills an empty
 * slug from its name or title on `save()` and never touches a slug that is already set.
 */
module NewsModels {
  import opened Basics

  /** `Noticia.STATUS_CHOICES`. */
  datatype Status = Rascunho | Publicada | Arquivada {
    /** The value stored in the column. */
    function Code(): string {
      match this
      case Rascunho => "RASCUNHO"
      case Publicada => "PUBLICADA"
      case Arquivada => "ARQUIVADA"
    }
  }

  /** The choice a stored value stands for; None for a value outside the choices. */
  function StatusOf(code: string): (r: Option<Status>)
    ensures r.Some? ==> r.value.Code() == code
  {
    if code == "RASCUNHO" then Some(Rascunho)
    else if code == "PUBLICADA" then Some(Publicada)
    else if code == "ARQUIVADA" then Some(Arquivada)
    else None
  }

  /** Every choice is stored as a distinct value that reads back as itself. */
  lemma StatusRoundTrip(s: Status)
    ensures StatusOf(s.Code()) == Some(s)
  {
  }

  datatype Categoria = Categoria(nome: string, slug: string, descricao: string, cor: string)

  /** A `Noticia` row; `categoria` and `autor` hold the name of the category and the username
      of the author (None is NULL). */
  datatype Noticia = Noticia(titulo: string, slug: string, subtitulo: string, resumo: string,
                             categoria: Option<string>, autor: Option<string>, status: Status,
                             destaque: bool, dataPublicacao: Option<Timestamp>)

  datatype Tag = Tag(nome: string, slug: string)

  /** The default of `Categoria.cor`. */
  const DefaultCor: string := "#007bff"

  /** A category as the constructor builds it: empty slug and description, default colour. */
  function NewCategoria(nome: string): Categoria {
    Categoria(nome, "", "", DefaultCor)
  }

  /** A news item as the constructor builds it: a draft, not featured, not published. */
  function NewNoticia(titulo: string): Noticia {
    Noticia(titulo, "", "", "", None, None, Rascunho, false, None)
  }

  /** `if not self.slug: self.slug = slugify(source)`. */
  function FillSlug(slugify: string -> string, slug: string, source: string): (r: string)
    ensures slug != "" ==> r == slug
    ensures slug == "" ==> r == slugify(source)
  {
    if slug == "" then slugify(source) else slug
  }

  /** `Categoria.save()`: only the slug may change. */
  function SaveCategoria(slugify: string -> string, c: Categoria): Categoria {
    c.(slug := FillSlug(slugify, c.slug, c.nome))
  }

  /** `Noticia.save()`: the slug comes from the title. */
  function SaveNoticia(slugify: string -> string, n: Noticia): Noticia {
    n.(slug := FillSlug(slugify, n.slug, n.titulo))
  }

  /** `Tag.save()`. */
  function SaveTag(slugify: string -> string, t: Tag): Tag {
    t.(slug := FillSlug(slugify, t.slug, t.nome))
  }

  /** Saving twice is saving once. */
  lemma SaveIdempotent(slugify: string -> string, c: Categoria, n: Noticia, t: Tag)
    ensures SaveCategoria(slugify, SaveCategoria(slugify, c)) == SaveCategoria(slugify, c)
    ensures SaveNoticia(slugify, SaveNoticia(slugify, n)) == SaveNoticia(slugify, n)
    ensures SaveTag(slugify, SaveTag(slugify, t)) == SaveTag(slugify, t)
  {
  }

  /** The slug is set once: after a rename, a saved row keeps the slug of its first name
      (as long as that slug was not empty). */
  lemma SlugSurvivesRename(slugify: string -> string, c: Categoria, n: Noticia, t: Tag, nome: string, titulo: string)
    ensures var c1 := SaveCategoria(slugify, c);
      c1.slug != "" ==> SaveCategoria(slugify, c1.(nome := nome)).slug == c1.slug
    ensures var n1 := SaveNoticia(slugify, n);
      n1.slug != "" ==> SaveNoticia(slugify, n1.(titulo := titulo)).slug == n1.slug
    ensures var t1 := SaveTag(slugify, t);
      t1.slug != "" ==> SaveTag(slugify, t1.(nome := nome)).slug == t1.slug
  {
  }

  /** Whether some row of `table` already holds `slug`. */
  function SlugTaken(table: seq<Categoria>, slug: string): (r: bool)
    ensures r <==> exists i :: 0 <= i < |table| && table[i].slug == slug
    decreases |table|
  {
    if |table| == 0 then false
    else if table[0].slug == slug then true
    else
      var r := SlugTaken(table[1..], slug);
      assert forall i :: 0 < i < |table| ==> table[i] == table[1..][i - 1];
      assert r ==> exists i :: 0 <= i < |table| && table[i].slug == slug by {
        if r {
          var k :| 0 <= k < |table[1..]| && table[1..][k].slug == slug;
          assert table[k + 1].slug == slug;
        }
      }
      r
  }

  /** No two rows share a slug, as the unique index on `Categoria.slug` demands. */
  predicate SlugsUnique(table: seq<Categoria>) {
    forall i, j :: 0 <= i < j < |table| ==> table[i].slug != table[j].slug
  }

  /** Saving a new category into the `categoria` table: the row goes in with its filled slug,
      unless another row already holds that slug, in which case the unique index refuses the
      INSERT (an IntegrityError; None here) and the table is unchanged. */
  function CreateCategoria(slugify: string -> string, table: seq<Categoria>, c: Categoria): (r: Option<seq<Categoria>>)
    ensures r.None? <==> exists i :: 0 <= i < |table| && table[i].slug == SaveCategoria(slugify, c).slug
    ensures r.Some? ==> |r.value| == |table| + 1 && r.value[..|table|] == table
    ensures r.Some? ==> r.value[|table|] == SaveCategoria(slugify, c)
  {
    var saved := SaveCategoria(slugify, c);
    if SlugTaken(table, saved.slug) then None else Some(table + [saved])
  }

  /** A successful save keeps the slugs of the table unique. */
  lemma CreateKeepsSlugsUnique(slugify: string -> string, table: seq<Categoria>, c: Categoria)
    requires SlugsUnique(table)
    ensures CreateCategoria(slugify, table, c).Some? ==> SlugsUnique(CreateCategoria(slugify, table, c).value)
  {
  }

  /** There is no de-duplication: a second new category with the name of one just saved gets
      the same slug, so the unique index refuses it, whatever the table held before. */
  lemma SecondSameNameRefused(slugify: string -> string, table: seq<Categoria>, a: Categoria, b: Categoria)
    requires a.slug == "" && b.slug == "" && a.nome == b.nome
    ensures CreateCategoria(slugify, table, a).Some? ==>
      CreateCategoria(slugify, CreateCategoria(slugify, table, a).value, b).None?
  {
    if CreateCategoria(slugify, table, a).Some? {
      var t1 := CreateCategoria(slugify, table, a).value;
      assert t1[|table|].slug == SaveCategoria(slugify, b).slug;
    }
  }
}

=== FILE: partidos.dfy ===
/**
 * `sync_partidos`: the parties listed by the Câmara dos Deputados API, upserted by
 * `id_partido`; with `--detalhes`, each party's detail record adds its status and links.
 */
module PartidosSync {
  import opened Basics
  import Upsert

  /** The `status` object of a detail record; a key the API left out is None. */
  datatype StatusData = StatusData(data: Option<string>, situacao: Option<string>, totalPosse: Option<int>,
                                   totalMembros: Option<int>, idLegislatura: Option<int>)

  /** The `dados` of a detail record. `status` is None when it is missing, null or `{}`,
      all of which `if status:` treats as false. */
  datatype Details = Details(status: Option<StatusData>, numeroEleitoral: Option<int>, urlLogo: Option<string>,
                             urlWebSite: Option<string>, urlFacebook: Option<string>)

  /** One element of the party list. */
  datatype PartidoData = PartidoData(id: Option<nat>, sigla: Option<string>, nome: Option<string>, uri: Option<string>)

  /** The `status_*` fields as written. */
  datatype Status = Status(data: Option<Timestamp>, situacao: string, totalPosse: Option<int>,
                           totalMembros: Option<int>, idLegislatura: Option<int>)

  /** `numero_eleitoral` and the three URLs as written. */
  datatype Extra = Extra(numeroEleitoral: Option<int>, urlLogo: string, urlWebsite: string, urlFacebook: string)

  /** A `Partido` row; None for a group of fields the command never wrote. */
  datatype Partido = Partido(sigla: string, nome: string, uri: string, status: Option<Status>, extra: Option<Extra>)

  /** What the command needs from outside: the detail endpoint (None when the request fails
      or the answer has no `dados`), `datetime.strptime` with the format "%Y-%m-%dT%H:%M"
      (None where it raises), and which complete records raise after their keys are read
      (the detail request or the database write), which the loop's `except` counts as errors. */
  datatype Env = Env(obterPartido: nat -> Option<Details>, strptime: string -> Option<Timestamp>,
                     raises: PartidoData -> bool)

  datatype SyncReport = FetchFailed | Summary(total: nat, criados: nat, atualizados: nat, erros: nat)

  /** `_parse_datetime`: None for a missing or empty string and for one `strptime` rejects. */
  function ParseDatetime(strptime: string -> Option<Timestamp>, s: Option<string>): (r: Option<Timestamp>)
    ensures s.None? || s == Some("") ==> r.None?
    ensures r.Some? ==> s.Some? && s.value != "" && strptime(s.value) == r
    ensures s.Some? && s.value != "" && strptime(s.value).Some? ==> r.Some?
  {
    match s
    case None => None
    case Some(t) => if t == "" then None else strptime(t)
  }

  /** `id`, `sigla` and `nome` are read with `[]`: a missing one raises KeyError, counted as an error. */
  function Complete(x: PartidoData): bool {
    x.id.Some? && x.sigla.Some? && x.nome.Some?
  }

  /** A record reaches the table when it is complete and nothing raises while it is written. */
  function Accepted(env: Env): PartidoData -> bool {
    (x: PartidoData) => Complete(x) && !env.raises(x)
  }

  function PartyId(x: PartidoData): nat {
    x.id.GetOr(0)
  }

  /** The detail record consulted for a party: none without `--detalhes`. */
  function DetailsFor(env: Env, detalhes: bool, id: nat): Option<Details> {
    if detalhes then env.obterPartido(id) else None
  }

  /** The status fields a detail record brings, when its status is non-empty. */
  function StatusFrom(env: Env, d: Option<Details>): Option<Status> {
    if d.Some? && d.value.status.Some? then
      var st := d.value.status.value;
      Some(Status(ParseDatetime(env.strptime, st.data), st.situacao.GetOr(""), st.totalPosse, st.totalMembros, st.idLegislatura))
    else None
  }

  /** The additional fields a detail record brings. */
  function ExtraFrom(d: Option<Details>): Option<Extra> {
    if d.Some? then
      var v := d.value;
      Some(Extra(v.numeroEleitoral, v.urlLogo.GetOr(""), v.urlWebSite.GetOr(""), v.urlFacebook.GetOr("")))
    else None
  }

  /** Overrides a group of fields when the detail record supplies it; `defaults` without the
      group leaves what the row held (nothing, for a new row). */
  function Override<T>(supplied: Option<T>, prior: Option<T>): Option<T> {
    if supplied.Some? then supplied else prior
  }

  /** `update_or_create(id_partido=..., defaults={sigla, nome, uri, **dados_completos})`. */
  function Write(env: Env, detalhes: bool): (Option<Partido>, PartidoData) -> Partido {
    (prior: Option<Partido>, x: PartidoData) =>
      var d := DetailsFor(env, detalhes, PartyId(x));
      Partido(x.sigla.GetOr(""), x.nome.GetOr(""), x.uri.GetOr(""),
              Override(StatusFrom(env, d), if prior.Some? then prior.value.status else None),
              Override(ExtraFrom(d), if prior.Some? then prior.value.extra else None))
  }

  function NewTable(env: Env, detalhes: bool, partidos: map<nat, Partido>, dados: seq<PartidoData>): map<nat, Partido> {
    Upsert.Apply(partidos, dados, Accepted(env), PartyId, Write(env, detalhes))
  }

  /** `handle`: the list answer is `response['dados']`, None when the request failed or the
      answer has no `dados`. */
  function Sync(env: Env, detalhes: bool, partidos: map<nat, Partido>, answer: Option<seq<PartidoData>>): (r: (map<nat, Partido>, SyncReport))
    ensures answer.None? <==> r.1.FetchFailed?
    ensures answer.None? ==> r.0 == partidos
    ensures answer.Some? ==> r.1.total == |answer.value| && r.1.criados + r.1.atualizados + r.1.erros == r.1.total
  {
    match answer
    case None => (partidos, FetchFailed)
    case Some(dados) =>
      var os := Upsert.Outcomes(partidos, dados, Accepted(env), PartyId, Write(env, detalhes));
      Upsert.CountsSum(os);
      (NewTable(env, detalhes, partidos, dados),
       Summary(|dados|, Upsert.Count(os, Upsert.Created), Upsert.Count(os, Upsert.Updated), Upsert.Count(os, Upsert.Rejected)))
  }

  /** A record counts as an error exactly when it lacks `id`, `sigla` or `nome`, or its detail
      request or write raises. */
  lemma ErrorIffRaises(env: Env, detalhes: bool, partidos: map<nat, Partido>, dados: seq<PartidoData>, i: nat)
    requires i < |dados|
    ensures var os := Upsert.Outcomes(partidos, dados, Accepted(env), PartyId, Write(env, detalhes));
      |os| == |dados| && (os[i] == Upsert.Rejected <==> !Complete(dados[i]) || env.raises(dados[i]))
  {
    Upsert.OutcomeAt(partidos, dados, Accepted(env), PartyId, Write(env, detalhes), i);
  }

  /** The list fields: a party holds the sigla, nome and uri (default "") of its last complete
      record that was written without raising; a party no such record names keeps its row. */
  lemma ListFieldsWritten(env: Env, detalhes: bool, partidos: map<nat, Partido>, dados: seq<PartidoData>, k: nat)
    ensures var t := NewTable(env, detalhes, partidos, dados);
      && (forall i :: (0 <= i < |dados| && Complete(dados[i]) && !env.raises(dados[i]) && dados[i].id == Some(k)
            && (forall j :: i < j < |dados| ==> !(Complete(dados[j]) && !env.raises(dados[j]) && dados[j].id == Some(k)))) ==>
            k in t && t[k].sigla == dados[i].sigla.value && t[k].nome == dados[i].nome.value
            && t[k].uri == dados[i].uri.GetOr(""))
      && ((forall i :: 0 <= i < |dados| && Complete(dados[i]) && !env.raises(dados[i]) ==> dados[i].id != Some(k)) ==>
            (k in t <==> k in partidos) && (k in t ==> t[k] == partidos[k]))
  {
    Upsert.ApplyAt(partidos, dados, Accepted(env), PartyId, Write(env, detalhes), k);
  }

  /** With `--detalhes`, a written party whose detail record has a non-empty status holds the
      status fields built from it, and one with any detail record holds its additional fields. */
  lemma DetailsWritten(env: Env, partidos: map<nat, Partido>, dados: seq<PartidoData>, k: nat)
    requires exists i :: 0 <= i < |dados| && Complete(dados[i]) && !env.raises(dados[i]) && dados[i].id == Some(k)
    ensures var t := NewTable(env, true, partidos, dados);
      && k in t
      && (StatusFrom(env, env.obterPartido(k)).Some? ==> t[k].status == StatusFrom(env, env.obterPartido(k)))
      && (env.obterPartido(k).Some? ==> t[k].extra == ExtraFrom(env.obterPartido(k)))
  {
    Upsert.ApplyAt(partidos, dados, Accepted(env), PartyId, Write(env, true), k);
  }

  /** The status of party `k` is what it was before the run, or the one the API's detail record
      for `k` supplies; for a party that was not stored, "what it was" is nothing. */
  ghost predicate StatusTracked(env: Env, detalhes: bool, partidos: map<nat, Partido>, k: nat, o: Option<Partido>) {
    && (k in partidos ==> o.Some?)
    && (o.Some? ==>
         var before := if k in partidos then partidos[k].status else None;
         var api := StatusFrom(env, DetailsFor(env, detalhes, k));
         o.value.status == before || (api.Some? && o.value.status == api))
  }

  ghost predicate ExtraTracked(env: Env, detalhes: bool, partidos: map<nat, Partido>, k: nat, o: Option<Partido>) {
    && (k in partidos ==> o.Some?)
    && (o.Some? ==>
         var before := if k in partidos then partidos[k].extra else None;
         var api := ExtraFrom(DetailsFor(env, detalhes, k));
         o.value.extra == before || (api.Some? && o.value.extra == api))
  }

  /** `status_*` fields change only to what a non-empty detail status supplies, and the
      additional fields only to what a detail record supplies. */
  lemma DetailsOnlyFromApi(env: Env, detalhes: bool, partidos: map<nat, Partido>, dados: seq<PartidoData>)
    ensures var t := NewTable(env, detalhes, partidos, dados);
      forall k :: k in t ==>
        && (t[k].status == (if k in partidos then partidos[k].status else None)
            || (StatusFrom(env, DetailsFor(env, detalhes, k)).Some? && t[k].status == StatusFrom(env, DetailsFor(env, detalhes, k))))
        && (t[k].extra == (if k in partidos then partidos[k].extra else None)
            || (ExtraFrom(DetailsFor(env, detalhes, k)).Some? && t[k].extra == ExtraFrom(DetailsFor(env, detalhes, k))))
  {
    var w := Write(env, detalhes);
    var inv := (k: nat, o: Option<Partido>) => StatusTracked(env, detalhes, partidos, k, o) && ExtraTracked(env, detalhes, partidos, k, o);
    Upsert.ApplyPreserves(partidos, dados, Accepted(env), PartyId, w, inv);
    var t := NewTable(env, detalhes, partidos, dados);
    assert forall k :: k in t ==> Lookup(t, k) == Some(t[k]);
  }

  /** Without `--detalhes`, only the list fields change: every party keeps its status and
      additional fields, and new parties have none. */
  lemma ListOnlyWithoutDetails(env: Env, partidos: map<nat, Partido>, dados: seq<PartidoData>)
    ensures var t := NewTable(env, false, partidos, dados);
      forall k :: k in t ==>
        && t[k].status == (if k in partidos then partidos[k].status else None)
        && t[k].extra == (if k in partidos then partidos[k].extra else None)
  {
    DetailsOnlyFromApi(env, false, partidos, dados);
  }
}

=== FILE: populate.dfy ===
/**
 * `populate_sexo`: seeds the three `Sexo` rows M, F and NB, creating the missing ones and,
 * with `--force`, renaming the existing ones; every write goes through `Sexo.save()`.
 */
module PopulateSexo {
  import opened Basics
  import Sexo

  /** One entry of `sexos_iniciais`. */
  datatype Seed = Seed(sigla: string, nome: string)

  const Seeds: seq<Seed> := [Seed("M", "Masculino"), Seed("F", "Feminino"), Seed("NB", "Não Binário")]

  /** What the command needs from outside: the text functions `save()` uses, the AI answer
      for each name, and the siglas whose database write raises. */
  datatype Env = Env(ops: Sexo.TextOps, ai: string -> Sexo.AiReply, failing: set<string>)

  /** The branch one seed takes. */
  datatype Outcome = Created | Updated | Kept | Failed

  /** The `Sexo` table keyed by its unique `sigla`. */
  type Table = map<string, Sexo.Sexo>

  /** Slugs of every row other than the one with sigla `sigla` (the `exclude(pk=...)` of
      `_gerar_slug`; a new row excludes nothing). */
  function OtherSlugs(t: Table, sigla: string): set<string> {
    set k | k in t && k != sigla :: t[k].slug
  }

  /** Rows are filed under their own sigla. */
  ghost predicate Keyed(t: Table) {
    forall k :: k in t ==> t[k].sigla == k
  }

  /** The `unique=True` of `slug`: no two rows share a slug. */
  ghost predicate SlugsDistinct(t: Table) {
    forall a, b :: a in t && b in t && a != b ==> t[a].slug != t[b].slug
  }

  /** The row `save()` stores for `s`, filed under `sigla`. */
  function Store(env: Env, t: Table, sigla: string, s: Sexo.Sexo): (r: Table)
    ensures sigla in r && r[sigla].nome == s.nome && r[sigla].sigla == s.sigla
    ensures forall k :: k != sigla ==> (k in r <==> k in t) && (k in t ==> r[k] == t[k])
  {
    t[sigla := Sexo.Save(s, OtherSlugs(t, sigla), env.ops, env.ai(s.nome)).row]
  }

  /** One iteration of the loop over `sexos_iniciais`. */
  function Step(env: Env, force: bool, t: Table, seed: Seed): (r: (Table, Outcome))
    ensures r.1 == Kept || r.1 == Failed ==> r.0 == t
    ensures r.1 == Created <==> seed.sigla !in t && seed.sigla !in env.failing
    ensures r.1 == Updated <==> seed.sigla in t && force && seed.sigla !in env.failing
    ensures r.1 == Kept <==> seed.sigla in t && !force
    ensures forall k :: k != seed.sigla ==> (k in r.0 <==> k in t) && (k in t ==> r.0[k] == t[k])
    ensures seed.sigla !in env.failing ==> seed.sigla in r.0
    ensures seed.sigla !in env.failing && (force || seed.sigla !in t) ==> r.0[seed.sigla].nome == seed.nome
  {
    if seed.sigla in t then
      if !force then (t, Kept)
      else if seed.sigla in env.failing then (t, Failed)
      else (Store(env, t, seed.sigla, t[seed.sigla].(nome := seed.nome)), Updated)
    else if seed.sigla in env.failing then (t, Failed)
    else (Store(env, t, seed.sigla, Sexo.NewSexo(seed.sigla, seed.nome)), Created)
  }

  function Run(env: Env, force: bool, t: Table, seeds: seq<Seed>): (Table, seq<Outcome>)
    decreases |seeds|
  {
    if |seeds| == 0 then (t, [])
    else
      var (t1, o) := Step(env, force, t, seeds[0]);
      var (t2, os) := Run(env, force, t1, seeds[1..]);
      (t2, [o] + os)
  }

  function CountOf(os: seq<Outcome>, o: Outcome): nat
    decreases |os|
  {
    if |os| == 0 then 0 else (if os[0] == o then 1 else 0) + CountOf(os[1..], o)
  }

  datatype Report = Report(criados: nat, atualizados: nat, erros: nat)

  /** `handle`. */
  function Handle(env: Env, force: bool, t: Table): (r: (Table, Report)) {
    var (t', os) := Run(env, force, t, Seeds);
    (t', Report(CountOf(os, Created), CountOf(os, Updated), CountOf(os, Failed)))
  }

  /** Storing a saved row keeps rows filed under their sigla and slugs distinct. */
  lemma StorePreserves(env: Env, t: Table, s: Sexo.Sexo)
    requires Keyed(t) && SlugsDistinct(t)
    requires s.sigla in t ==> s.slug == t[s.sigla].slug
    requires s.sigla !in t ==> s.slug == ""
    ensures Keyed(Store(env, t, s.sigla, s)) && SlugsDistinct(Store(env, t, s.sigla, s))
  {
    var others := OtherSlugs(t, s.sigla);
    var row := Sexo.Save(s, others, env.ops, env.ai(s.nome)).row;
    var t' := Store(env, t, s.sigla, s);
    assert row.slug !in others by {
      if !Sexo.SlugNeedsRefresh(s) {
        forall k | k in t && k != s.sigla
          ensures t[k].slug != row.slug
        {
        }
      }
    }
    forall a, b | a in t' && b in t' && a != b
      ensures t'[a].slug != t'[b].slug
    {
      if a == s.sigla {
        assert t'[b].slug in others;
      } else if b == s.sigla {
        assert t'[a].slug in others;
      }
    }
  }

  /** Every run keeps rows filed under their sigla and slugs distinct. */
  lemma {:induction false} RunPreserves(env: Env, force: bool, t: Table, seeds: seq<Seed>)
    requires Keyed(t) && SlugsDistinct(t)
    ensures Keyed(Run(env, force, t, seeds).0) && SlugsDistinct(Run(env, force, t, seeds).0)
    decreases |seeds|
  {
    if |seeds| > 0 {
      var seed := seeds[0];
      if seed.sigla in t && force && seed.sigla !in env.failing {
        StorePreserves(env, t, t[seed.sigla].(nome := seed.nome));
      } else if seed.sigla !in t && seed.sigla !in env.failing {
        StorePreserves(env, t, Sexo.NewSexo(seed.sigla, seed.nome));
      }
      RunPreserves(env, force, Step(env, force, t, seed).0, seeds[1..]);
    }
  }

  /** Without `--force`, rows that already exist are left exactly as they were. */
  lemma {:induction false} WithoutForceKeepsRows(env: Env, t: Table, seeds: seq<Seed>)
    ensures var t' := Run(env, false, t, seeds).0;
      forall k :: k in t ==> k in t' && t'[k] == t[k]
    decreases |seeds|
  {
    if |seeds| > 0 {
      WithoutForceKeepsRows(env, Step(env, false, t, seeds[0]).0, seeds[1..]);
    }
  }

  /** With no failing write, every seeded sigla exists after the run; a new one, or any with
      `--force`, carries the seed's name. */
  lemma {:induction false} RunSeeds(env: Env, force: bool, t: Table, seeds: seq<Seed>, i: nat)
    requires i < |seeds|
    requires forall j :: 0 <= j < |seeds| ==> seeds[j].sigla !in env.failing
    requires forall j, l :: 0 <= j < l < |seeds| ==> seeds[j].sigla != seeds[l].sigla
    ensures var t' := Run(env, force, t, seeds).0;
      && seeds[i].sigla in t'
      && (force || seeds[i].sigla !in t ==> t'[seeds[i].sigla].nome == seeds[i].nome)
    decreases |seeds|
  {
    if i == 0 {
      FirstSeedStays(env, force, t, seeds);
    } else {
      var t1 := Step(env, force, t, seeds[0]).0;
      var rest := seeds[1..];
      assert Run(env, force, t, seeds).0 == Run(env, force, t1, rest).0;
      assert seeds[i] == rest[i - 1];
      assert seeds[i].sigla in t ==> seeds[i].sigla in t1;
      RunSeeds(env, force, t1, rest, i - 1);
    }
  }

  /** The first seed's row, once written, is left alone by the seeds after it. */
  lemma FirstSeedStays(env: Env, force: bool, t: Table, seeds: seq<Seed>)
    requires |seeds| > 0 && seeds[0].sigla !in env.failing
    requires forall l :: 0 < l < |seeds| ==> seeds[l].sigla != seeds[0].sigla
    ensures var t' := Run(env, force, t, seeds).0;
      && seeds[0].sigla in t'
      && (force || seeds[0].sigla !in t ==> t'[seeds[0].sigla].nome == seeds[0].nome)
  {
    var t1 := Step(env, force, t, seeds[0]).0;
    var rest := seeds[1..];
    assert Run(env, force, t, seeds).0 == Run(env, force, t1, rest).0;
    assert forall j :: 0 <= j < |rest| ==> rest[j] == seeds[j + 1];
    KeptByLaterSeeds(env, force, t1, rest, seeds[0].sigla);
  }

  /** When no write fails, M, F and NB all exist after `handle`, and each one the run created
      or forced carries its seeded name. */
  lemma SeedsPresent(env: Env, force: bool, t: Table)
    requires "M" !in env.failing && "F" !in env.failing && "NB" !in env.failing
    ensures var t' := Handle(env, force, t).0;
      forall j :: 0 <= j < |Seeds| ==>
        Seeds[j].sigla in t' && (force || Seeds[j].sigla !in t ==> t'[Seeds[j].sigla].nome == Seeds[j].nome)
  {
    forall j | 0 <= j < |Seeds|
      ensures var t' := Handle(env, force, t).0;
        Seeds[j].sigla in t' && (force || Seeds[j].sigla !in t ==> t'[Seeds[j].sigla].nome == Seeds[j].nome)
    {
      RunSeeds(env, force, t, Seeds, j);
    }
  }

  /** Seeds for other siglas leave a row alone. */
  lemma {:induction false} KeptByLaterSeeds(env: Env, force: bool, t: Table, seeds: seq<Seed>, k: string)
    requires forall j :: 0 <= j < |seeds| ==> seeds[j].sigla != k
    ensures var t' := Run(env, force, t, seeds).0;
      (k in t' <==> k in t) && (k in t ==> t'[k] == t[k])
    decreases |seeds|
  {
    if |seeds| > 0 {
      KeptByLaterSeeds(env, force, Step(env, force, t, seeds[0]).0, seeds[1..], k);
    }
  }

  /** On a table that holds every seeded sigla, a run without `--force` keeps every seed and
      changes nothing. */
  lemma {:induction false} QuietRun(env: Env, t: Table, seeds: seq<Seed>)
    requires forall j :: 0 <= j < |seeds| ==> seeds[j].sigla in t
    ensures Run(env, false, t, seeds).0 == t
    ensures forall o :: o != Kept ==> CountOf(Run(env, false, t, seeds).1, o) == 0
    decreases |seeds|
  {
    if |seeds| > 0 {
      QuietRun(env, t, seeds[1..]);
    }
  }

  /** On a table that holds M, F and NB already, a run without `--force` creates, updates and
      fails nothing, and changes nothing. */
  lemma SecondRunIsQuiet(env: Env, t: Table)
    requires forall j :: 0 <= j < |Seeds| ==> Seeds[j].sigla in t
    ensures Handle(env, false, t) == (t, Report(0, 0, 0))
  {
    QuietRun(env, t, Seeds);
  }
}

=== FILE: sample_news.dfy ===
/**
 * `create_sample_news`: five categories, the `admin` user and five published news items,
 * each created with `get_or_create` so that existing rows are left as they are.
 */
module SampleNews {
  import opened Basics
  import Upsert
  import NewsModels

  /** One entry of `categorias_data`. */
  datatype CategoriaSeed = CategoriaSeed(nome: string, cor: string, descricao: string)

  const CategoriaSeeds: seq<CategoriaSeed> := [
    CategoriaSeed("Política", "#0d6efd", "Notícias sobre política brasileira"),
    CategoriaSeed("Economia", "#198754", "Notícias sobre economia"),
    CategoriaSeed("Legislação", "#dc3545", "Novas leis e proposições"),
    CategoriaSeed("Comissões", "#ffc107", "Atividades das comissões"),
    CategoriaSeed("Plenário", "#0dcaf0", "Votações e debates no plenário")
  ]

  /** One entry of `noticias_data` (the body text `conteudo` is not modelled). */
  datatype NoticiaSeed = NoticiaSeed(titulo: string, subtitulo: string, resumo: string, categoria: string, destaque: bool)

  const NoticiaSeeds: seq<NoticiaSeed> := [
    NoticiaSeed("Câmara aprova projeto de lei sobre educação digital",
                "Proposta inclui tecnologia no currículo escolar",
                "A Câmara dos Deputados aprovou hoje o projeto de lei que inclui educação digital como disciplina obrigatória no ensino básico.",
                "Legislação", true),
    NoticiaSeed("Deputados debatem reforma tributária em audiência pública",
                "Especialistas apresentam propostas para simplificação",
                "Comissão especial realiza audiência pública para discutir os impactos da reforma tributária na economia brasileira.",
                "Comissões", true),
    NoticiaSeed("Nova lei de proteção de dados pessoais entra em vigor",
                "Empresas têm prazo para se adequar às novas regras",
                "Lei que estabelece regras para tratamento de dados pessoais entra em vigor e traz mudanças importantes para empresas e cidadãos.",
                "Legislação", false),
    NoticiaSeed("Plenário vota projeto sobre energia renovável",
                "Proposta incentiva investimentos em energia solar e eólica",
                "Deputados votam hoje projeto que cria incentivos fiscais para investimentos em fontes de energia renovável.",
                "Plenário", true),
    NoticiaSeed("Comissão de Economia debate impactos da inflação",
                "Parlamentares ouvem especialistas sobre controle de preços",
                "Comissão realiza reunião para discutir medidas de controle da inflação e seus impactos na economia.",
                "Economia", false)
  ]

  /** A `User` row, keyed by username. */
  datatype User = User(email: string, isStaff: bool, isSuperuser: bool)

  const AdminName: string := "admin"
  const AdminDefaults: User := User("admin@example.com", true, true)

  /** The tables the command touches: categories by name, users by username, news by title.
      Keying by name and title leaves out tables holding two categories of one name or two
      news items of one title, which the schema allows. */
  datatype Store = Store(categorias: map<string, NewsModels.Categoria>, users: map<string, User>,
                         noticias: map<string, NewsModels.Noticia>)

  // ---------------------------------------------------------------------------------------
  // The get_or_create calls
  // ---------------------------------------------------------------------------------------

  function Always<R>(x: R): bool { true }
  function CategoriaName(x: CategoriaSeed): string { x.nome }

  /** `get_or_create(nome=..., defaults=cat_data)`; `save()` fills the slug of a new row. */
  function GetOrCreateCategoria(slugify: string -> string): (Option<NewsModels.Categoria>, CategoriaSeed) -> NewsModels.Categoria {
    (prior: Option<NewsModels.Categoria>, x: CategoriaSeed) =>
      if prior.Some? then prior.value
      else NewsModels.SaveCategoria(slugify, NewsModels.Categoria(x.nome, "", x.descricao, x.cor))
  }

  /** A news seed with the reading of `timezone.now()` taken when its `defaults` are built;
      the loop reads the clock once per item. */
  datatype Stamped = Stamped(seed: NoticiaSeed, at: Timestamp)

  function StampedTitle(x: Stamped): string { x.seed.titulo }

  /** The loop's items, item `i` carrying the clock reading `clock(i)`. */
  function Stamp(news: seq<NoticiaSeed>, clock: nat -> Timestamp): (r: seq<Stamped>)
    ensures |r| == |news|
    ensures forall i :: 0 <= i < |news| ==> r[i] == Stamped(news[i], clock(i))
  {
    seq(|news|, i requires 0 <= i < |news| => Stamped(news[i], clock(i)))
  }

  /** `get_or_create(titulo=..., defaults={..., categoria, autor, 'PUBLICADA', timezone.now()})`. */
  function GetOrCreateNoticia(slugify: string -> string): (Option<NewsModels.Noticia>, Stamped) -> NewsModels.Noticia {
    (prior: Option<NewsModels.Noticia>, x: Stamped) =>
      if prior.Some? then prior.value
      else NewsModels.SaveNoticia(slugify, NewsModels.Noticia(x.seed.titulo, "", x.seed.subtitulo, x.seed.resumo, Some(x.seed.categoria),
                                                              Some(AdminName), NewsModels.Publicada, x.seed.destaque, Some(x.at)))
  }

  /** The news table after the loop, with clock readings `clock`. */
  function NewsAfter(slugify: string -> string, clock: nat -> Timestamp, ns: map<string, NewsModels.Noticia>, news: seq<NoticiaSeed>): map<string, NewsModels.Noticia> {
    Upsert.Apply(ns, Stamp(news, clock), Always, StampedTitle, GetOrCreateNoticia(slugify))
  }

  function NewCategorias(slugify: string -> string, cats: map<string, NewsModels.Categoria>): map<string, NewsModels.Categoria> {
    Upsert.Apply(cats, CategoriaSeeds, Always, CategoriaName, GetOrCreateCategoria(slugify))
  }


  /** Every news item names one of the categories. */
  predicate CategoriesCovered(cats: map<string, NewsModels.Categoria>, news: seq<NoticiaSeed>) {
    forall i :: 0 <= i < |news| ==> news[i].categoria in cats
  }

  /** The command on given seed lists; None where `Categoria.objects.get(nome=...)` would raise
      `DoesNotExist`. None carries no table: the categories, the `admin` user and the news
      items written before the failing lookup, which the source has already committed, are
      not returned. With the command's own seed lists this never happens. */
  function Run(slugify: string -> string, clock: nat -> Timestamp, s: Store, categorias: seq<CategoriaSeed>, news: seq<NoticiaSeed>): Option<Store> {
    var cats := Upsert.Apply(s.categorias, categorias, Always, CategoriaName, GetOrCreateCategoria(slugify));
    var users := if AdminName in s.users then s.users else s.users[AdminName := AdminDefaults];
    if !CategoriesCovered(cats, news) then None
    else Some(Store(cats, users, NewsAfter(slugify, clock, s.noticias, news)))
  }

  /** `handle`; `clock(i)` is what `timezone.now()` returns for the `i`-th news item. */
  function Handle(slugify: string -> string, clock: nat -> Timestamp, s: Store): Option<Store> {
    Run(slugify, clock, s, CategoriaSeeds, NoticiaSeeds)
  }

  // ---------------------------------------------------------------------------------------
  // Properties
  // ---------------------------------------------------------------------------------------

  /** Every news item's category is among the seeded ones. */
  predicate NewsCategoriesSeeded(categorias: seq<CategoriaSeed>, news: seq<NoticiaSeed>) {
    forall i :: 0 <= i < |news| ==> exists j :: 0 <= j < |categorias| && categorias[j].nome == news[i].categoria
  }

  predicate DistinctTitles(news: seq<NoticiaSeed>) {
    forall a, b :: 0 <= a < b < |news| ==> news[a].titulo != news[b].titulo
  }

  /** The seed lists as written: every news category is seeded. */
  lemma SeedListsConsistent()
    ensures NewsCategoriesSeeded(CategoriaSeeds, NoticiaSeeds)
  {
    var c := CategoriaSeeds;
    var n := NoticiaSeeds;
    assert n[0].categoria == c[2].nome && n[2].categoria == c[2].nome;
    assert n[1].categoria == c[3].nome;
    assert n[3].categoria == c[4].nome;
    assert n[4].categoria == c[1].nome;
  }

  /** The category lookup of the news loop never raises when every news category is seeded:
      each one was just created, or already existed. */
  lemma RunSucceeds(slugify: string -> string, clock: nat -> Timestamp, s: Store, categorias: seq<CategoriaSeed>, news: seq<NoticiaSeed>)
    requires NewsCategoriesSeeded(categorias, news)
    ensures Run(slugify, clock, s, categorias, news).Some?
  {
    var cats := Upsert.Apply(s.categorias, categorias, Always, CategoriaName, GetOrCreateCategoria(slugify));
    forall i | 0 <= i < |news|
      ensures news[i].categoria in cats
    {
      var j :| 0 <= j < |categorias| && categorias[j].nome == news[i].categoria;
      Upsert.AdmittedKeysPresent(s.categorias, categorias, Always, CategoriaName, GetOrCreateCategoria(slugify), j);
    }
  }

  /** After a run, every seeded category and news item exists, the admin user exists, and rows
      that existed before are untouched. */
  lemma RunCreates(slugify: string -> string, clock: nat -> Timestamp, s: Store, categorias: seq<CategoriaSeed>, news: seq<NoticiaSeed>)
    requires NewsCategoriesSeeded(categorias, news)
    ensures var r := Run(slugify, clock, s, categorias, news);
      && r.Some?
      && (forall i :: 0 <= i < |categorias| ==> categorias[i].nome in r.value.categorias)
      && (forall i :: 0 <= i < |news| ==> news[i].titulo in r.value.noticias)
      && AdminName in r.value.users
      && (forall k :: k in s.categorias ==> k in r.value.categorias && r.value.categorias[k] == s.categorias[k])
      && (forall k :: k in s.users ==> k in r.value.users && r.value.users[k] == s.users[k])
      && (forall k :: k in s.noticias ==> k in r.value.noticias && r.value.noticias[k] == s.noticias[k])
  {
    RunSucceeds(slugify, clock, s, categorias, news);
    var wc := GetOrCreateCategoria(slugify);
    var wn := GetOrCreateNoticia(slugify);
    var stamped := Stamp(news, clock);
    assert Upsert.KeepsExisting(wc);
    assert Upsert.KeepsExisting(wn);
    var r := Run(slugify, clock, s, categorias, news).value;
    forall i | 0 <= i < |categorias|
      ensures categorias[i].nome in r.categorias
    {
      Upsert.AdmittedKeysPresent(s.categorias, categorias, Always, CategoriaName, wc, i);
    }
    forall i | 0 <= i < |news|
      ensures news[i].titulo in r.noticias
    {
      Upsert.AdmittedKeysPresent(s.noticias, stamped, Always, StampedTitle, wn, i);
    }
    forall k | k in s.categorias
      ensures k in r.categorias && r.categorias[k] == s.categorias[k]
    {
      Upsert.KeepExisting(s.categorias, categorias, Always, CategoriaName, wc, k);
    }
    forall k | k in s.noticias
      ensures k in r.noticias && r.noticias[k] == s.noticias[k]
    {
      Upsert.KeepExisting(s.noticias, stamped, Always, StampedTitle, wn, k);
    }
  }

  /** A news item the run creates is published, by `admin`, at the clock reading taken for it,
      in its seeded category, with the slug of its title. */
  lemma CreatedNewsPublished(slugify: string -> string, clock: nat -> Timestamp, ns: map<string, NewsModels.Noticia>, news: seq<NoticiaSeed>, i: nat)
    requires i < |news| && DistinctTitles(news)
    requires news[i].titulo !in ns
    ensures var t := NewsAfter(slugify, clock, ns, news);
      && news[i].titulo in t
      && t[news[i].titulo].status == NewsModels.Publicada
      && t[news[i].titulo].autor == Some(AdminName)
      && t[news[i].titulo].categoria == Some(news[i].categoria)
      && t[news[i].titulo].dataPublicacao == Some(clock(i))
      && t[news[i].titulo].slug == slugify(news[i].titulo)
  {
    var stamped := Stamp(news, clock);
    var x := stamped[i];
    var wn := GetOrCreateNoticia(slugify);
    var pre := stamped[..i];
    Upsert.ApplyAt(ns, stamped, Always, StampedTitle, wn, x.seed.titulo);
    Upsert.ApplyAt(ns, pre, Always, StampedTitle, wn, x.seed.titulo);
    assert Upsert.LastWriter(stamped, Always, StampedTitle, x.seed.titulo) == i;
    assert forall j :: 0 <= j < |pre| ==> pre[j] == stamped[j];
    assert Upsert.LastWriter(pre, Always, StampedTitle, x.seed.titulo) < 0;
  }

  /** Running the command a second time, with any later clock readings, changes nothing. */
  lemma RunTwiceChangesNothing(slugify: string -> string, clock: nat -> Timestamp, later: nat -> Timestamp, s: Store, categorias: seq<CategoriaSeed>, news: seq<NoticiaSeed>)
    requires NewsCategoriesSeeded(categorias, news)
    ensures var r := Run(slugify, clock, s, categorias, news);
      r.Some? && Run(slugify, later, r.value, categorias, news) == r
  {
    RunCreates(slugify, clock, s, categorias, news);
    var r := Run(slugify, clock, s, categorias, news).value;
    RunSucceeds(slugify, later, r, categorias, news);
    var stamped := Stamp(news, later);
    assert Upsert.KeepsExisting(GetOrCreateCategoria(slugify));
    assert Upsert.KeepsExisting(GetOrCreateNoticia(slugify));
    Upsert.KeepRerun(s.categorias, categorias, Always, CategoriaName, GetOrCreateCategoria(slugify));
    assert forall i :: 0 <= i < |stamped| ==> StampedTitle(stamped[i]) == news[i].titulo;
    Upsert.KeepAll(r.noticias, stamped, Always, StampedTitle, GetOrCreateNoticia(slugify));
  }

  /** What `get_or_create` writes for a new title: published, by `admin`, with the slug of the
      title, at the clock reading of some item of that title. */
  ghost predicate Published(slugify: string -> string, clock: nat -> Timestamp, news: seq<NoticiaSeed>, k: string, n: NewsModels.Noticia) {
    && n.titulo == k && n.status == NewsModels.Publicada && n.autor == Some(AdminName) && n.slug == slugify(k)
    && exists i :: 0 <= i < |news| && news[i].titulo == k && n.dataPublicacao == Some(clock(i))
  }

  /** Every news row the run adds is published, whatever the seed list (repeated titles
      included); rows that were there stay as they were. */
  lemma AddedNewsPublished(slugify: string -> string, clock: nat -> Timestamp, ns: map<string, NewsModels.Noticia>, news: seq<NoticiaSeed>)
    ensures var t := NewsAfter(slugify, clock, ns, news);
      forall k :: k in t && k !in ns ==> Published(slugify, clock, news, k, t[k])
  {
    var stamped := Stamp(news, clock);
    var wn := GetOrCreateNoticia(slugify);
    var inv := (k: string, o: Option<NewsModels.Noticia>) =>
      (k in ns ==> o == Some(ns[k])) && (k !in ns && o.Some? ==> Published(slugify, clock, news, k, o.value));
    forall x, o | x in stamped && inv(StampedTitle(x), o)
      ensures inv(StampedTitle(x), Some(wn(o, x)))
    {
      var i :| 0 <= i < |stamped| && stamped[i] == x;
      assert news[i].titulo == StampedTitle(x) && x.at == clock(i);
    }
    Upsert.ApplyPreserves(ns, stamped, Always, StampedTitle, wn, inv);
    var t := NewsAfter(slugify, clock, ns, news);
    assert forall k :: k in t ==> Lookup(t, k) == Some(t[k]);
  }

  /** `handle` as written, on tables holding at most one row per category name and news
      title: no lookup fails, existing rows are left alone, what it creates is published, and
      a second run changes nothing. */
  lemma HandleProperties(slugify: string -> string, clock: nat -> Timestamp, later: nat -> Timestamp, s: Store)
    ensures var r := Handle(slugify, clock, s);
      && r.Some?
      && (forall i :: 0 <= i < |CategoriaSeeds| ==> CategoriaSeeds[i].nome in r.value.categorias)
      && (forall i :: 0 <= i < |NoticiaSeeds| ==> NoticiaSeeds[i].titulo in r.value.noticias)
      && AdminName in r.value.users
      && (forall k :: k in r.value.noticias && k !in s.noticias ==> Published(slugify, clock, NoticiaSeeds, k, r.value.noticias[k]))
      && Handle(slugify, later, r.value) == r
  {
    SeedListsConsistent();
    RunCreates(slugify, clock, s, CategoriaSeeds, NoticiaSeeds);
    RunTwiceChangesNothing(slugify, clock, later, s, CategoriaSeeds, NoticiaSeeds);
    AddedNewsPublished(slugify, clock, s.noticias, NoticiaSeeds);
  }
}

=== FILE: sexo.dfy ===
/**
 * The `Sexo` record and the rules its `save()` applies: a unique slug derived from the name,
 * a word-set test for a "significant" rename, and an AI description capped at 500 characters.
 *
 * Django's `slugify` and Python's `str.lower` are left uninterpreted (fields of `TextOps`);
 * the OpenAI reply, or its absence, is an input (`AiReply`).
 */
module Sexo {
  import opened Basics
  import Text
  import Decimal

  /** A stored `Sexo` row. `nomeAnterior` is the name as of the last save (`_nome_anterior`). */
  datatype Sexo = Sexo(sigla: string, nome: string, descricao: string, slug: string, nomeAnterior: string)

  /** Library text functions the model does not interpret. */
  datatype TextOps = TextOps(slugify: string -> string, lower: string -> string)

  /** What the description generator gets back: no `OPENAI_API_KEY` in the environment, a chat
      completion with the given content, or an exception with the given message. */
  datatype AiReply = NoApiKey | Reply(content: string) | Raised(message: string)

  // ---------------------------------------------------------------------------------------
  // Slug: `base`, then `base-1`, `base-2`, ... until no other row holds it.
  // ---------------------------------------------------------------------------------------

  /** The `n`-th slug tried: the base itself, then `base-n`. */
  function Candidate(base: string, n: nat): string {
    if n == 0 then base else base + "-" + Decimal.NatToString(n)
  }

  /** Different attempts try different slugs. */
  lemma CandidateInjective(base: string, i: nat, j: nat)
    requires Candidate(base, i) == Candidate(base, j)
    ensures i == j
  {
    if i != 0 && j != 0 {
      var c := Candidate(base, i);
      assert c[|base| + 1..] == Decimal.NatToString(i);
      assert Candidate(base, j)[|base| + 1..] == Decimal.NatToString(j);
      Decimal.NatToStringInjective(i, j);
    }
  }

  function CandidatesBelow(base: string, k: nat): set<string> {
    set i | 0 <= i < k :: Candidate(base, i)
  }

  lemma {:induction false} CandidatesBelowSize(base: string, k: nat)
    ensures |CandidatesBelow(base, k)| == k
    decreases k
  {
    if k > 0 {
      CandidatesBelowSize(base, k - 1);
      CandidatesStep(base, k - 1);
    }
  }

  /** One more attempt adds one new slug. */
  lemma CandidatesStep(base: string, n: nat)
    ensures |CandidatesBelow(base, n + 1)| == |CandidatesBelow(base, n)| + 1
  {
    var c := Candidate(base, n);
    var prev := CandidatesBelow(base, n);
    var cur := CandidatesBelow(base, n + 1);
    assert c in cur;
    forall x | x in prev
      ensures x in cur
    {
      var i :| 0 <= i < n && Candidate(base, i) == x;
      assert Candidate(base, i) in cur;
    }
    forall x | x in cur
      ensures x in prev + {c}
    {
      var i :| 0 <= i < n + 1 && Candidate(base, i) == x;
      if i < n {
        assert Candidate(base, i) in prev;
      }
    }
    forall i | 0 <= i < n
      ensures Candidate(base, i) != c
    {
      if Candidate(base, i) == c {
        CandidateInjective(base, i, n);
      }
    }
    assert cur == prev + {c};
    assert c !in prev;
  }

  /** If the first `k` attempts are all taken, at least `k` slugs are taken: the search ends. */
  lemma TakenBound(base: string, taken: set<string>, k: nat)
    requires forall i :: 0 <= i < k ==> Candidate(base, i) in taken
    ensures k <= |taken|
  {
    var c := CandidatesBelow(base, k);
    CandidatesBelowSize(base, k);
    assert taken == c + (taken - c);
    assert |taken| == |c| + |taken - c|;
  }

  /** At most one attempt is the first free one. */
  lemma FirstFreeUnique(base: string, taken: set<string>, k1: nat, k2: nat)
    requires Candidate(base, k1) !in taken && forall i :: 0 <= i < k1 ==> Candidate(base, i) in taken
    requires Candidate(base, k2) !in taken && forall i :: 0 <= i < k2 ==> Candidate(base, i) in taken
    ensures k1 == k2
  {
  }

  /** The first free attempt at or after `n`, given that the attempts before `n` are taken. */
  function FreeIndexFrom(base: string, taken: set<string>, n: nat): (k: nat)
    requires forall i :: 0 <= i < n ==> Candidate(base, i) in taken
    ensures n <= k
    ensures Candidate(base, k) !in taken
    ensures forall i :: 0 <= i < k ==> Candidate(base, i) in taken
    decreases |taken| - n
  {
    if Candidate(base, n) !in taken then n
    else
      TakenBound(base, taken, n + 1);
      FreeIndexFrom(base, taken, n + 1)
  }

  /** The slug `_gerar_slug` settles on when `taken` is the set of slugs of the other rows. */
  function UniqueSlug(base: string, taken: set<string>): (slug: string)
    ensures slug !in taken
    ensures base !in taken ==> slug == base
    ensures base in taken ==>
      exists n :: n >= 1 && slug == Candidate(base, n) && (forall i :: 0 <= i < n ==> Candidate(base, i) in taken)
  {
    Candidate(base, FreeIndexFrom(base, taken, 0))
  }

  /** The `while ... exists()` loop of `_gerar_slug`, step for step. */
  method UniqueSlugLoop(base: string, taken: set<string>) returns (slug: string)
    ensures slug == UniqueSlug(base, taken)
  {
    slug := base;
    var counter: nat := 1;
    while slug in taken
      invariant slug == Candidate(base, counter - 1)
      invariant forall i :: 0 <= i < counter - 1 ==> Candidate(base, i) in taken
      decreases |taken| - counter
    {
      TakenBound(base, taken, counter);
      slug := base + "-" + Decimal.NatToString(counter);
      counter := counter + 1;
    }
    FirstFreeUnique(base, taken, counter - 1, FreeIndexFrom(base, taken, 0));
  }

  /** `_gerar_slug` recomputes the slug when it is empty or the name changed since the last save. */
  predicate SlugNeedsRefresh(s: Sexo) {
    s.slug == [] || s.nome != s.nomeAnterior
  }

  /** `_gerar_slug`; `others` holds the slugs of every other row. */
  function GenerateSlug(s: Sexo, others: set<string>, ops: TextOps): (r: Sexo)
    ensures r == s.(slug := r.slug)
    ensures SlugNeedsRefresh(s) ==> r.slug == UniqueSlug(ops.slugify(s.nome), others) && r.slug !in others
    ensures !SlugNeedsRefresh(s) ==> r.slug == s.slug
  {
    if SlugNeedsRefresh(s) then s.(slug := UniqueSlug(ops.slugify(s.nome), others)) else s
  }

  // ---------------------------------------------------------------------------------------
  // Significant rename: Jaccard similarity of the word sets below 0.7.
  // ---------------------------------------------------------------------------------------

  /** `name.lower().strip()`. */
  function Normalize(ops: TextOps, name: string): string {
    Text.Strip(ops.lower(name))
  }

  /** `set(name.split())`. */
  function WordSet(name: string): set<string> {
    set w | w in Text.Words(name)
  }

  /** The word-set test: no previous words, or Jaccard similarity `|a ∩ b| / |a ∪ b|` below 0.7,
      read as `10*|a ∩ b| < 7*|a ∪ b|`. */
  predicate WordsChanged(a: set<string>, b: set<string>) {
    b == {} || 10 * |a * b| < 7 * |a + b|
  }

  /** `_nome_mudou_significativamente`: `nome` against `_nome_anterior`. */
  predicate SignificantChange(ops: TextOps, nome: string, anterior: string) {
    if anterior == [] then true
    else
      var atual := Normalize(ops, nome);
      var previous := Normalize(ops, anterior);
      atual != previous && WordsChanged(WordSet(atual), WordSet(previous))
  }

  /** Share of words that differ is above 30% (the docstring's wording): `|a △ b| / |a ∪ b| > 0.3`. */
  predicate MoreThanThirtyPercentDiffer(a: set<string>, b: set<string>) {
    10 * |(a - b) + (b - a)| > 3 * |a + b|
  }

  /** Jaccard similarity below 0.7 is the same as Jaccard distance above 0.3, so the code
      does what its docstring says. */
  lemma SimilarityIsDistance(a: set<string>, b: set<string>)
    ensures 10 * |a * b| < 7 * |a + b| <==> MoreThanThirtyPercentDiffer(a, b)
  {
    var d := (a - b) + (b - a);
    assert a + b == (a * b) + d;
    assert (a * b) * d == {};
    assert |a + b| == |a * b| + |d|;
  }

  /** Equal word sets are never a change. */
  lemma SameWordsUnchanged(a: set<string>)
    requires a != {}
    ensures !WordsChanged(a, a)
  {
    assert a * a == a + a == a;
  }

  /** Word sets with nothing in common are always a change. */
  lemma DisjointWordsChanged(a: set<string>, b: set<string>)
    requires a * b == {}
    ensures WordsChanged(a, b)
  {
    if b != {} {
      var w :| w in b;
      assert w in a + b;
    }
  }

  lemma WordSetEmptyIffNoWords(s: string)
    ensures WordSet(s) == {} <==> Text.Words(s) == []
  {
    if Text.Words(s) != [] {
      assert Text.Words(s)[0] in WordSet(s);
    }
  }

  /** A stripped string without words is empty. */
  lemma BlankStripped(s: string)
    requires WordSet(Text.Strip(s)) == {}
    ensures Text.Strip(s) == []
  {
    var r := Text.Strip(s);
    WordSetEmptyIffNoWords(r);
    Text.NoWordsIffBlank(r);
    Text.StripShape(s);
  }

  /** A change in case, spacing or word order alone is never significant: same word set,
      no new description. */
  lemma SameWordsNotSignificant(ops: TextOps, nome: string, anterior: string)
    requires anterior != []
    requires WordSet(Normalize(ops, nome)) == WordSet(Normalize(ops, anterior))
    ensures !SignificantChange(ops, nome, anterior)
  {
    var a := WordSet(Normalize(ops, nome));
    if a == {} {
      BlankStripped(ops.lower(nome));
      BlankStripped(ops.lower(anterior));
    } else {
      SameWordsUnchanged(a);
    }
  }

  /** A rename that keeps no word of the old name is significant. */
  lemma DisjointWordsSignificant(ops: TextOps, nome: string, anterior: string)
    requires anterior != []
    requires Normalize(ops, nome) != Normalize(ops, anterior)
    requires WordSet(Normalize(ops, nome)) * WordSet(Normalize(ops, anterior)) == {}
    ensures SignificantChange(ops, nome, anterior)
  {
    DisjointWordsChanged(WordSet(Normalize(ops, nome)), WordSet(Normalize(ops, anterior)));
  }

  // ---------------------------------------------------------------------------------------
  // Description.
  // ---------------------------------------------------------------------------------------

  const MaxDescription: nat := 500

  /** Caps a description at 500 characters, marking a cut with "...". */
  function Truncate(d: string): (r: string)
    ensures |r| <= MaxDescription
    ensures |d| <= MaxDescription ==> r == d
    ensures |d| > MaxDescription ==> |r| == MaxDescription && r == d[..497] + "..."
  {
    if |d| > MaxDescription then d[..497] + "..." else d
  }

  lemma TruncateIdempotent(d: string)
    ensures Truncate(Truncate(d)) == Truncate(d)
  {
  }

  /** The first `n` characters (Python's `s[:n]`). */
  function Prefix(s: string, n: nat): (r: string)
    ensures |r| <= n && r <= s
  {
    if |s| <= n then s else s[..n]
  }

  /** `_gerar_descricao_ia` for the name `nome`. */
  function Describe(nome: string, reply: AiReply): string {
    match reply
    case NoApiKey => "Descrição de " + nome + " (API key não configurada)"
    case Reply(content) => Truncate(Text.Strip(content))
    case Raised(message) =>
      "Classificação de sexo/gênero: " + nome + ". (Erro ao gerar descrição: " + Prefix(message, 100) + ")"
  }

  /** Within the name's 100-character limit, every branch yields at most 500 characters. */
  lemma DescriptionFits(nome: string, reply: AiReply)
    requires |nome| <= 100
    ensures |Describe(nome, reply)| <= MaxDescription
  {
  }

  // ---------------------------------------------------------------------------------------
  // save()
  // ---------------------------------------------------------------------------------------

  /** After `save()`: the Python object (`instance`) and the database row (`row`). */
  datatype Saved = Saved(instance: Sexo, row: Sexo)

  /** `Sexo.save()`: slug, then description if the rename is significant, then the write,
      then the queryset update of `_nome_anterior` (which the in-memory object does not see). */
  function Save(s: Sexo, others: set<string>, ops: TextOps, reply: AiReply): (r: Saved)
    ensures r.instance.sigla == s.sigla && r.instance.nome == s.nome
    ensures r.instance.nomeAnterior == s.nomeAnterior
    ensures r.row == r.instance.(nomeAnterior := s.nome)
    ensures SlugNeedsRefresh(s) ==> r.row.slug == UniqueSlug(ops.slugify(s.nome), others) && r.row.slug !in others
    ensures !SlugNeedsRefresh(s) ==> r.row.slug == s.slug
    ensures SignificantChange(ops, s.nome, s.nomeAnterior) ==> r.row.descricao == Describe(s.nome, reply)
    ensures !SignificantChange(ops, s.nome, s.nomeAnterior) ==> r.row.descricao == s.descricao
  {
    var withSlug := GenerateSlug(s, others, ops);
    var described :=
      if SignificantChange(ops, withSlug.nome, withSlug.nomeAnterior)
      then withSlug.(descricao := Describe(withSlug.nome, reply))
      else withSlug;
    var row := if described.nome != described.nomeAnterior then described.(nomeAnterior := described.nome) else described;
    Saved(described, row)
  }

  /** A fresh row as `Sexo.objects.create(sigla=..., nome=...)` builds it before saving. */
  function NewSexo(sigla: string, nome: string): Sexo {
    Sexo(sigla, nome, "", "", "")
  }

  /** The first save of a new row always slugs it and always asks for a description. */
  lemma CreateDescribes(sigla: string, nome: string, others: set<string>, ops: TextOps, reply: AiReply)
    ensures var row := Save(NewSexo(sigla, nome), others, ops, reply).row;
      && row.slug == UniqueSlug(ops.slugify(nome), others)
      && row.descricao == Describe(nome, reply)
      && row.nomeAnterior == nome
  {
  }

  /** Saving a stored row again, unchanged and with the other rows unchanged, is a no-op
      whatever the AI would answer: the slug stays, no description is requested. */
  lemma ResaveIsStable(s: Sexo, others: set<string>, ops: TextOps, reply: AiReply, reply': AiReply)
    requires s.nome != []
    ensures var row := Save(s, others, ops, reply).row;
      Save(row, others, ops, reply').row == row
  {
    var row := Save(s, others, ops, reply).row;
    assert !SignificantChange(ops, row.nome, row.nomeAnterior);
  }
}

=== FILE: text.dfy ===
/**
 * Python's whitespace-sensitive string operations, written out exactly:
 * `str.isspace`, `str.strip()`, `str.split()` (no separator) and `str.split(sep)`.
 * Python strings are sequences of code points, as Dafny strings are.
 */
module Text {

  /** True exactly for the code points on which Python's `str.isspace()` holds. */
  predicate IsSpace(c: char) {
    || ('\t' <= c <= '\r')               // \t \n \v \f \r
    || ('\U{1c}' <= c <= '\U{1f}')       // file, group, record and unit separators
    || c == ' ' || c == '\U{85}' || c == '\U{a0}' || c == '\U{1680}'
    || ('\U{2000}' <= c <= '\U{200a}')
    || c == '\U{2028}' || c == '\U{2029}' || c == '\U{202f}' || c == '\U{205f}' || c == '\U{3000}'
  }

  predicate AllSpace(s: string) {
    forall k :: 0 <= k < |s| ==> IsSpace(s[k])
  }

  predicate NoSpace(s: string) {
    forall k :: 0 <= k < |s| ==> !IsSpace(s[k])
  }

  /** The first position at or after `i` that does not hold whitespace (`|s|` if none). */
  function SkipSpace(s: string, i: nat): (j: nat)
    requires i <= |s|
    ensures i <= j <= |s|
    ensures forall k :: i <= k < j ==> IsSpace(s[k])
    ensures j == |s| || !IsSpace(s[j])
    decreases |s| - i
  {
    if i < |s| && IsSpace(s[i]) then SkipSpace(s, i + 1) else i
  }

  /** Going back from `j` towards `lo`, the start of the run of whitespace that ends at `j`. */
  function BackSpace(s: string, lo: nat, j: nat): (i: nat)
    requires lo <= j <= |s|
    ensures lo <= i <= j
    ensures forall k :: i <= k < j ==> IsSpace(s[k])
    ensures i == lo || !IsSpace(s[i - 1])
    decreases j - lo
  {
    if j > lo && IsSpace(s[j - 1]) then BackSpace(s, lo, j - 1) else j
  }

  /** The first whitespace position at or after `i` (`|s|` if none). */
  function WordEnd(s: string, i: nat): (e: nat)
    requires i <= |s|
    ensures i <= e <= |s|
    ensures forall k :: i <= k < e ==> !IsSpace(s[k])
    ensures e == |s| || IsSpace(s[e])
    ensures i < |s| && !IsSpace(s[i]) ==> i < e
    decreases |s| - i
  {
    if i < |s| && !IsSpace(s[i]) then WordEnd(s, i + 1) else i
  }

  /** `s.strip()`: leading whitespace dropped, then trailing whitespace. */
  function Strip(s: string): string {
    var a := SkipSpace(s, 0);
    s[a..BackSpace(s, a, |s|)]
  }

  /** `s.strip()` is a contiguous piece of `s` that neither starts nor ends with whitespace,
      and everything cut away is whitespace. */
  lemma StripShape(s: string)
    ensures var r := Strip(s);
      && (r == [] || (!IsSpace(r[0]) && !IsSpace(r[|r| - 1])))
      && exists i :: 0 <= i <= |s| - |r| && r == s[i..i + |r|] && AllSpace(s[..i]) && AllSpace(s[i + |r|..])
  {
    StripEnds(s);
    StripPiece(s);
  }

  lemma StripEnds(s: string)
    ensures var r := Strip(s);
      r == [] || (!IsSpace(r[0]) && !IsSpace(r[|r| - 1]))
  {
    var a := SkipSpace(s, 0);
    var b := BackSpace(s, a, |s|);
    assert a < b ==> s[a..b][0] == s[a] && s[a..b][b - a - 1] == s[b - 1];
  }

  lemma StripPiece(s: string)
    ensures var r := Strip(s);
      exists i :: 0 <= i <= |s| - |r| && r == s[i..i + |r|] && AllSpace(s[..i]) && AllSpace(s[i + |r|..])
  {
    var a := SkipSpace(s, 0);
    var b := BackSpace(s, a, |s|);
    assert AllSpace(s[..a]) by {
      forall k | 0 <= k < a
        ensures IsSpace(s[..a][k])
      {
        assert s[..a][k] == s[k];
      }
    }
    assert AllSpace(s[b..]) by {
      forall k | 0 <= k < |s| - b
        ensures IsSpace(s[b..][k])
      {
        assert s[b..][k] == s[b + k];
      }
    }
    assert Strip(s) == s[a..a + (b - a)];
  }

  /** Every character of `s.strip()` occurs in `s`. */
  lemma StripChars(s: string)
    ensures forall c :: c in Strip(s) ==> c in s
  {
    var a := SkipSpace(s, 0);
    var r := Strip(s);
    forall c | c in r
      ensures c in s
    {
      var k :| 0 <= k < |r| && r[k] == c;
      assert s[a + k] == c;
    }
  }

  /** `s.strip()` is empty exactly when `s` is all whitespace (so `if p.strip()` keeps the lines
      that hold some visible character). */
  lemma StripEmptyIffAllSpace(s: string)
    ensures Strip(s) == [] <==> AllSpace(s)
  {
    var a := SkipSpace(s, 0);
    var b := BackSpace(s, a, |s|);
    assert Strip(s) == [] <==> b == a;
  }

  /** Stripping twice is stripping once. */
  lemma StripIdempotent(s: string)
    ensures Strip(Strip(s)) == Strip(s)
  {
    var r := Strip(s);
    StripShape(s);
    if r != [] {
      assert SkipSpace(r, 0) == 0;
      assert BackSpace(r, 0, |r|) == |r|;
      assert r[0..|r|] == r;
    }
  }

  /** The words of `s` from position `i` on. */
  function WordsFrom(s: string, i: nat): seq<string>
    requires i <= |s|
    decreases |s| - i
  {
    var a := SkipSpace(s, i);
    if a == |s| then []
    else
      var e := WordEnd(s, a);
      [s[a..e]] + WordsFrom(s, e)
  }

  /** `s.split()`: the maximal runs of non-whitespace characters, in order. */
  function Words(s: string): seq<string> {
    WordsFrom(s, 0)
  }

  /** Every word found from `i` on is non-empty and holds no whitespace. */
  lemma {:induction false} WordsFromShape(s: string, i: nat)
    requires i <= |s|
    ensures forall n :: 0 <= n < |WordsFrom(s, i)| ==> WordsFrom(s, i)[n] != [] && NoSpace(WordsFrom(s, i)[n])
    decreases |s| - i
  {
    var a := SkipSpace(s, i);
    if a < |s| {
      var e := WordEnd(s, a);
      WordsFromShape(s, e);
      var ws := WordsFrom(s, i);
      var rest := WordsFrom(s, e);
      assert ws == [s[a..e]] + rest;
      assert NoSpace(s[a..e]) by {
        forall k | 0 <= k < e - a
          ensures !IsSpace(s[a..e][k])
        {
          assert s[a..e][k] == s[a + k];
        }
      }
      forall n | 0 <= n < |ws|
        ensures ws[n] != [] && NoSpace(ws[n])
      {
        if n == 0 {
          assert ws[0] == s[a..e];
        } else {
          assert ws[n] == rest[n - 1];
        }
      }
    }
  }

  /** Every word of `s.split()` is non-empty and holds no whitespace. */
  lemma WordsShape(s: string)
    ensures forall n :: 0 <= n < |Words(s)| ==> Words(s)[n] != [] && NoSpace(Words(s)[n])
  {
    WordsFromShape(s, 0);
    assert Words(s) == WordsFrom(s, 0);
  }

  /** A text has no words exactly when it is all whitespace. */
  lemma NoWordsIffBlank(s: string)
    ensures Words(s) == [] <==> AllSpace(s)
  {
    var a := SkipSpace(s, 0);
    assert a < |s| ==> !IsSpace(s[a]);
  }

  /** `s.split(sep)`: the pieces between occurrences of `sep`, empty pieces included
      (so there is always at least one piece). */
  function Split(s: string, sep: char): (parts: seq<string>)
    ensures |parts| >= 1
    ensures forall i :: 0 <= i < |parts| ==> sep !in parts[i]
    decreases |s|
  {
    if |s| == 0 then [[]]
    else if s[0] == sep then [[]] + Split(s[1..], sep)
    else
      var rest := Split(s[1..], sep);
      [[s[0]] + rest[0]] + rest[1..]
  }

  /** `sep.join(parts)`. */
  function Join(parts: seq<string>, sep: char): string
    decreases |parts|
  {
    if |parts| == 0 then []
    else if |parts| == 1 then parts[0]
    else parts[0] + [sep] + Join(parts[1..], sep)
  }

  /** Splitting on `sep` loses nothing: joining the pieces back gives the original text. */
  lemma {:induction false} JoinSplit(s: string, sep: char)
    ensures Join(Split(s, sep), sep) == s
    decreases |s|
  {
    if |s| == 0 {
    } else if s[0] == sep {
      JoinSplit(s[1..], sep);
      var rest := Split(s[1..], sep);
      assert Split(s, sep)[1..] == rest;
    } else {
      JoinSplit(s[1..], sep);
      var rest := Split(s[1..], sep);
      var parts := Split(s, sep);
      assert parts[1..] == rest[1..];
      if |rest| == 1 {
        assert parts == [[s[0]] + rest[0]];
      } else {
        assert Join(rest, sep) == rest[0] + [sep] + Join(rest[1..], sep);
        assert Join(parts, sep) == [s[0]] + rest[0] + [sep] + Join(rest[1..], sep);
      }
    }
  }
}

=== FILE: tipos.dfy ===
/**
 * `sync_tipos_proposicao`: the proposition types listed by the Câmara dos Deputados API,
 * upserted into `TipoProposicao` by their code `cod`.
 */
module TiposSync {
  import opened Basics
  import Upsert

  /** A `TipoProposicao` row; the table is keyed by `cod`, which is unique. */
  datatype TipoProposicao = TipoProposicao(sigla: string, nome: string, descricao: string)

  /** The `descricao` key of a record: left out, sent as JSON null, or a string. */
  datatype Descricao = Absent | Null | Text(s: string)

  /** One element of `dados`; a key the API left out is None. */
  datatype TipoData = TipoData(cod: Option<string>, sigla: Option<string>, nome: Option<string>, descricao: Descricao)

  /** A request that failed or an answer without `dados` is a FetchFailed; otherwise the
      three counters of the summary. */
  datatype SyncReport = FetchFailed | Summary(criados: nat, atualizados: nat, erros: nat) {
    /** "Total processado". */
    function Total(): nat
      requires Summary?
    {
      criados + atualizados
    }
  }

  /** Reading `tipo_data['cod']`, `['sigla']` and `['nome']` raises KeyError, caught by
      the loop's `except`, when any of them is missing. */
  function Complete(x: TipoData): bool {
    x.cod.Some? && x.sigla.Some? && x.nome.Some?
  }

  /** A record goes through `update_or_create` when it is complete and the database does not
      refuse the write. A null `descricao` reaches the non-null column as None and is always
      refused; `raises` says which other writes are refused (a value longer than its column,
      ...). A refused write is caught by the same `except` and counts as an error. */
  function Accepted(raises: TipoData -> bool): TipoData -> bool {
    (x: TipoData) => Writable(raises, x)
  }

  predicate Writable(raises: TipoData -> bool, x: TipoData) {
    Complete(x) && !x.descricao.Null? && !raises(x)
  }

  /** `tipo_data.get('descricao', '')` as stored: "" for a key left out, the string otherwise. */
  function StoredDescricao(d: Descricao): string {
    match d
    case Text(s) => s
    case _ => ""
  }

  function Cod(x: TipoData): string {
    x.cod.GetOr("")
  }

  /** The `defaults` of `update_or_create`; `descricao` falls back to "". */
  function Write(prior: Option<TipoProposicao>, x: TipoData): TipoProposicao {
    TipoProposicao(x.sigla.GetOr(""), x.nome.GetOr(""), StoredDescricao(x.descricao))
  }

  function NewTable(raises: TipoData -> bool, tipos: map<string, TipoProposicao>, dados: seq<TipoData>): map<string, TipoProposicao> {
    Upsert.Apply(tipos, dados, Accepted(raises), Cod, Write)
  }

  function TipoOutcomes(raises: TipoData -> bool, tipos: map<string, TipoProposicao>, dados: seq<TipoData>): seq<Upsert.Outcome> {
    Upsert.Outcomes(tipos, dados, Accepted(raises), Cod, Write)
  }

  /** `handle`: the answer is `response['dados']`, None when the request failed or the
      answer has no `dados`. An empty list is not a failure. */
  function Sync(raises: TipoData -> bool, tipos: map<string, TipoProposicao>, answer: Option<seq<TipoData>>): (r: (map<string, TipoProposicao>, SyncReport))
    ensures answer.None? <==> r.1.FetchFailed?
    ensures answer.None? ==> r.0 == tipos
    ensures answer.Some? ==> r.1.criados + r.1.atualizados + r.1.erros == |answer.value|
  {
    match answer
    case None => (tipos, FetchFailed)
    case Some(dados) =>
      var os := TipoOutcomes(raises, tipos, dados);
      Upsert.CountsSum(os);
      (NewTable(raises, tipos, dados),
       Summary(Upsert.Count(os, Upsert.Created), Upsert.Count(os, Upsert.Updated), Upsert.Count(os, Upsert.Rejected)))
  }

  /** A record counts as an error exactly when it lacks `cod`, `sigla` or `nome`, sends a null
      `descricao`, or its write is otherwise refused; otherwise it is created when its code was
      not stored before it, and updated when it was. */
  lemma SyncOutcome(raises: TipoData -> bool, tipos: map<string, TipoProposicao>, dados: seq<TipoData>, i: nat)
    requires i < |dados|
    ensures var os := TipoOutcomes(raises, tipos, dados);
      var before := NewTable(raises, tipos, dados[..i]);
      && |os| == |dados|
      && (dados[i].descricao.Null? ==> os[i] == Upsert.Rejected)
      && (os[i] == Upsert.Rejected <==> !Complete(dados[i]) || dados[i].descricao.Null? || raises(dados[i]))
      && (os[i] == Upsert.Created <==> Complete(dados[i]) && !dados[i].descricao.Null? && !raises(dados[i]) && dados[i].cod.value !in before)
  {
    Upsert.OutcomeAt(tipos, dados, Accepted(raises), Cod, Write, i);
  }

  /** A code holds the sigla, nome and descricao ("" when left out) of its last complete record
      whose write went through, which never has a null descricao; codes no such record names
      keep their row. */
  lemma SyncStores(raises: TipoData -> bool, tipos: map<string, TipoProposicao>, dados: seq<TipoData>, c: string)
    ensures var t := NewTable(raises, tipos, dados);
      && (forall i :: (0 <= i < |dados| && Writable(raises, dados[i]) && dados[i].cod == Some(c)
            && (forall j :: i < j < |dados| ==> !(Writable(raises, dados[j]) && dados[j].cod == Some(c)))) ==>
            && !dados[i].descricao.Null?
            && c in t
            && t[c].sigla == dados[i].sigla.value && t[c].nome == dados[i].nome.value
            && t[c].descricao == (if dados[i].descricao.Absent? then "" else dados[i].descricao.s))
      && ((forall i :: 0 <= i < |dados| && Writable(raises, dados[i]) ==> dados[i].cod != Some(c)) ==>
            (c in t <==> c in tipos) && (c in t ==> t[c] == tipos[c]))
  {
    assert forall x :: Accepted(raises)(x) == Writable(raises, x);
    Upsert.ApplyAt(tipos, dados, Accepted(raises), Cod, Write, c);
  }

  /** Running the command again on the same answer creates nothing, updates every record
      whose write goes through, and leaves the table as the first run left it. */
  lemma SyncRerun(raises: TipoData -> bool, tipos: map<string, TipoProposicao>, dados: seq<TipoData>)
    ensures var first := Sync(raises, tipos, Some(dados));
      var second := Sync(raises, first.0, Some(dados));
      && second.0 == first.0
      && second.1.criados == 0
      && second.1.erros == first.1.erros
  {
    var a := NewTable(raises, tipos, dados);
    assert Upsert.Overwrites(Write);
    Upsert.OverwriteRerun(tipos, dados, Accepted(raises), Cod, Write);
    Upsert.RerunUpdates(tipos, dados, Accepted(raises), Cod, Write);
    var os1 := TipoOutcomes(raises, tipos, dados);
    var os2 := TipoOutcomes(raises, a, dados);
    Upsert.CountZero(os2, Upsert.Created);
    forall i | 0 <= i < |dados|
      ensures os1[i] == Upsert.Rejected <==> os2[i] == Upsert.Rejected
    {
      SyncOutcome(raises, tipos, dados, i);
      SyncOutcome(raises, a, dados, i);
    }
    Upsert.SameCount(os1, os2, Upsert.Rejected);
  }

  /** A left-out `descricao` and a null one are told apart: a complete record without the key,
      followed by the same record with `descricao: null`, is created once and counted as one
      error, and the stored description is "". */
  lemma AbsentAndNullDiffer(raises: TipoData -> bool, cod: string, sigla: string, nome: string)
    requires !raises(TipoData(Some(cod), Some(sigla), Some(nome), Absent))
    ensures var x := TipoData(Some(cod), Some(sigla), Some(nome), Absent);
      var r := Sync(raises, map[], Some([x, x.(descricao := Null)]));
      && r.1 == Summary(1, 0, 1)
      && r.0 == map[cod := TipoProposicao(sigla, nome, "")]
  {
    var x := TipoData(Some(cod), Some(sigla), Some(nome), Absent);
    var dados := [x, x.(descricao := Null)];
    var os := TipoOutcomes(raises, map[], dados);
    assert dados[..0] == [];
    SyncOutcome(raises, map[], dados, 0);
    SyncOutcome(raises, map[], dados, 1);
    assert os == [Upsert.Created, Upsert.Rejected];
    assert os[..1] == [Upsert.Created] && os[..1][..0] == [];
    SyncStores(raises, map[], dados, cod);
    var t := NewTable(raises, map[], dados);
    forall c | c in t
      ensures c == cod
    {
      SyncStores(raises, map[], dados, c);
    }
    assert t == map[cod := TipoProposicao(sigla, nome, "")];
    assert Upsert.Count(os[..1], Upsert.Created) == 1;
    assert Upsert.Count(os[..1], Upsert.Rejected) == 0;
    assert Upsert.Count(os[..1], Upsert.Updated) == 0;
    assert Sync(raises, map[], Some(dados)) == (t, Summary(Upsert.Count(os, Upsert.Created), Upsert.Count(os, Upsert.Updated), Upsert.Count(os, Upsert.Rejected)));
  }
}

=== FILE: upsert.dfy ===
/**
 * The loop every synchronisation command runs: feed a list of records, one at a time,
 * to Django's `update_or_create` or `get_or_create` keyed by a natural key.
 *
 * A table is a finite map from the natural key to the stored row. A record either is
 * rejected (the command skips it or an exception is caught) or reaches the database, where
 * `write` computes the stored row from the row already there (None when the key is new).
 * `update_or_create` overwrites the listed fields; `get_or_create` keeps an existing row.
 */
module Upsert {
  import opened Basics

  /** What one record did: the `created` flag of the ORM call, or the skip/error branch. */
  datatype Outcome = Created | Updated | Rejected

  /** Feeds one record to the table. */
  function Step<K, V, R>(m: map<K, V>, x: R, admit: R -> bool, key: R -> K, write: (Option<V>, R) -> V): map<K, V>
  {
    if admit(x) then m[key(x) := write(Lookup(m, key(x)), x)] else m
  }

  function OutcomeOf<K, V, R>(m: map<K, V>, x: R, admit: R -> bool, key: R -> K): Outcome
  {
    if !admit(x) then Rejected else if key(x) in m then Updated else Created
  }

  /** Feeds the records to the table in list order. */
  function Apply<K, V, R>(m: map<K, V>, rs: seq<R>, admit: R -> bool, key: R -> K, write: (Option<V>, R) -> V): map<K, V>
    decreases |rs|
  {
    if |rs| == 0 then m
    else Step(Apply(m, rs[..|rs| - 1], admit, key, write), rs[|rs| - 1], admit, key, write)
  }

  /** The outcome of each record, in list order. */
  function Outcomes<K, V, R>(m: map<K, V>, rs: seq<R>, admit: R -> bool, key: R -> K, write: (Option<V>, R) -> V): (os: seq<Outcome>)
    ensures |os| == |rs|
    decreases |rs|
  {
    if |rs| == 0 then []
    else
      var pre := rs[..|rs| - 1];
      Outcomes(m, pre, admit, key, write) + [OutcomeOf(Apply(m, pre, admit, key, write), rs[|rs| - 1], admit, key)]
  }

  /** Some record's write is refused by the table's constraints, given the table the records
      before it left; `refused` says which writes the constraints forbid. */
  ghost predicate SomeRefused<K, V, R>(m: map<K, V>, rs: seq<R>, admit: R -> bool, key: R -> K, write: (Option<V>, R) -> V,
                                       refused: (map<K, V>, R) -> bool) {
    exists i :: 0 <= i < |rs| && refused(Apply(m, rs[..i], admit, key, write), rs[i])
  }

  /** The first record, from `j` on, whose write is refused; `|rs|` when every write goes
      through. The loop stops there: the rows written before it stay. */
  function FirstRefused<K, V, R>(m: map<K, V>, rs: seq<R>, admit: R -> bool, key: R -> K, write: (Option<V>, R) -> V,
                                 refused: (map<K, V>, R) -> bool, j: nat): (i: nat)
    requires j <= |rs|
    ensures j <= i <= |rs|
    ensures i < |rs| ==> refused(Apply(m, rs[..i], admit, key, write), rs[i])
    ensures forall n :: j <= n < i ==> !refused(Apply(m, rs[..n], admit, key, write), rs[n])
    ensures j == 0 ==> (i < |rs| <==> SomeRefused(m, rs, admit, key, write, refused))
    decreases |rs| - j
  {
    if j == |rs| then j
    else if refused(Apply(m, rs[..j], admit, key, write), rs[j]) then j
    else FirstRefused(m, rs, admit, key, write, refused, j + 1)
  }

  /** How many records had outcome `o`: the command's counter for `o`. */
  function Count(os: seq<Outcome>, o: Outcome): nat
    decreases |os|
  {
    if |os| == 0 then 0 else Count(os[..|os| - 1], o) + (if os[|os| - 1] == o then 1 else 0)
  }

  /** Every record bumps exactly one of the three counters. */
  lemma {:induction false} CountsSum(os: seq<Outcome>)
    ensures Count(os, Created) + Count(os, Updated) + Count(os, Rejected) == |os|
    decreases |os|
  {
    if |os| > 0 {
      CountsSum(os[..|os| - 1]);
    }
  }

  /** A counter is zero exactly when no record had that outcome. */
  lemma {:induction false} CountZero(os: seq<Outcome>, o: Outcome)
    ensures Count(os, o) == 0 <==> forall i :: 0 <= i < |os| ==> os[i] != o
    decreases |os|
  {
    if |os| > 0 {
      CountZero(os[..|os| - 1], o);
      assert forall i :: 0 <= i < |os| - 1 ==> os[..|os| - 1][i] == os[i];
    }
  }

  /** A counter equals the list length exactly when every record had that outcome. */
  lemma {:induction false} CountAll(os: seq<Outcome>, o: Outcome)
    ensures Count(os, o) == |os| <==> forall i :: 0 <= i < |os| ==> os[i] == o
    decreases |os|
  {
    if |os| > 0 {
      CountAll(os[..|os| - 1], o);
      assert forall i :: 0 <= i < |os| - 1 ==> os[..|os| - 1][i] == os[i];
      CountBound(os[..|os| - 1], o);
    }
  }

  lemma {:induction false} CountBound(os: seq<Outcome>, o: Outcome)
    ensures Count(os, o) <= |os|
    decreases |os|
  {
    if |os| > 0 {
      CountBound(os[..|os| - 1], o);
    }
  }

  /** The outcome of record `i` is decided by the table as the records before it left it. */
  lemma {:induction false} OutcomeAt<K, V, R>(m: map<K, V>, rs: seq<R>, admit: R -> bool, key: R -> K, write: (Option<V>, R) -> V, i: nat)
    requires i < |rs|
    ensures Outcomes(m, rs, admit, key, write)[i] == OutcomeOf(Apply(m, rs[..i], admit, key, write), rs[i], admit, key)
    decreases |rs|
  {
    if i < |rs| - 1 {
      var pre := rs[..|rs| - 1];
      OutcomeAt(m, pre, admit, key, write, i);
      assert pre[..i] == rs[..i];
    } else {
      assert rs[..|rs| - 1] == rs[..i];
    }
  }

  /** The index of the last admitted record with key `k`, or -1 when there is none. */
  function LastWriter<K(==), R>(rs: seq<R>, admit: R -> bool, key: R -> K, k: K): (i: int)
    ensures -1 <= i < |rs|
    ensures i >= 0 ==> admit(rs[i]) && key(rs[i]) == k
    ensures forall j :: i < j < |rs| ==> !(admit(rs[j]) && key(rs[j]) == k)
    decreases |rs|
  {
    if |rs| == 0 then -1
    else if admit(rs[|rs| - 1]) && key(rs[|rs| - 1]) == k then |rs| - 1
    else LastWriter(rs[..|rs| - 1], admit, key, k)
  }

  /** Two runs with outcome `o` at the same positions count the same number of `o`. */
  lemma {:induction false} SameCount(os1: seq<Outcome>, os2: seq<Outcome>, o: Outcome)
    requires |os1| == |os2|
    requires forall i :: 0 <= i < |os1| ==> (os1[i] == o <==> os2[i] == o)
    ensures Count(os1, o) == Count(os2, o)
    decreases |os1|
  {
    if |os1| > 0 {
      SameCount(os1[..|os1| - 1], os2[..|os2| - 1], o);
    }
  }

  /** Last write wins: a key no admitted record names keeps its row (or stays absent);
      otherwise it holds what its last admitted record wrote over the row the earlier
      records left. */
  lemma {:induction false} ApplyAt<K, V, R>(m: map<K, V>, rs: seq<R>, admit: R -> bool, key: R -> K, write: (Option<V>, R) -> V, k: K)
    ensures var a := Apply(m, rs, admit, key, write);
      var i := LastWriter(rs, admit, key, k);
      if i < 0 then (k in a <==> k in m) && (k in m ==> a[k] == m[k])
      else k in a && a[k] == write(Lookup(Apply(m, rs[..i], admit, key, write), k), rs[i])
    decreases |rs|
  {
    if |rs| > 0 {
      var pre := rs[..|rs| - 1];
      ApplyAt(m, pre, admit, key, write, k);
      var i := LastWriter(rs, admit, key, k);
      if i >= 0 && i < |rs| - 1 {
        assert pre[..i] == rs[..i];
      }
    }
  }

  /** A property of each key's row (None when absent) that holds before the run and that every
      admitted write of the list preserves holds after the run. */
  lemma {:induction false} ApplyPreserves<K, V, R>(m: map<K, V>, rs: seq<R>, admit: R -> bool, key: R -> K, write: (Option<V>, R) -> V, inv: (K, Option<V>) -> bool)
    requires forall k :: inv(k, Lookup(m, k))
    requires forall x, o :: x in rs && admit(x) && inv(key(x), o) ==> inv(key(x), Some(write(o, x)))
    ensures forall k :: inv(k, Lookup(Apply(m, rs, admit, key, write), k))
    decreases |rs|
  {
    if |rs| > 0 {
      var prev := Apply(m, rs[..|rs| - 1], admit, key, write);
      assert forall x :: x in rs[..|rs| - 1] ==> x in rs;
      ApplyPreserves(m, rs[..|rs| - 1], admit, key, write, inv);
      var x := rs[|rs| - 1];
      forall k
        ensures inv(k, Lookup(Apply(m, rs, admit, key, write), k))
      {
        if admit(x) && k == key(x) {
          assert inv(key(x), Lookup(prev, k));
        } else {
          assert Lookup(Apply(m, rs, admit, key, write), k) == Lookup(prev, k);
        }
      }
    }
  }

  /** `write` ignores the stored row: `update_or_create` whose defaults cover every field. */
  ghost predicate Overwrites<V(!new), R(!new)>(write: (Option<V>, R) -> V) {
    forall o, x :: write(o, x) == write(None, x)
  }

  /** `write` never changes a stored row: `get_or_create`. */
  ghost predicate KeepsExisting<V(!new), R(!new)>(write: (Option<V>, R) -> V) {
    forall v, x :: write(Some(v), x) == v
  }

  /** Keys only ever get added. */
  lemma {:induction false} KeysGrow<K, V, R>(m: map<K, V>, rs: seq<R>, admit: R -> bool, key: R -> K, write: (Option<V>, R) -> V)
    ensures m.Keys <= Apply(m, rs, admit, key, write).Keys
    decreases |rs|
  {
    if |rs| > 0 {
      KeysGrow(m, rs[..|rs| - 1], admit, key, write);
    }
  }

  /** After a run, every admitted record's key is in the table. */
  lemma AdmittedKeysPresent<K, V, R>(m: map<K, V>, rs: seq<R>, admit: R -> bool, key: R -> K, write: (Option<V>, R) -> V, j: nat)
    requires j < |rs| && admit(rs[j])
    ensures key(rs[j]) in Apply(m, rs, admit, key, write)
  {
    ApplyAt(m, rs, admit, key, write, key(rs[j]));
  }

  /** With overwriting writes, running the same list a second time changes nothing. */
  lemma OverwriteRerun<K(!new), V(!new), R(!new)>(m: map<K, V>, rs: seq<R>, admit: R -> bool, key: R -> K, write: (Option<V>, R) -> V)
    requires Overwrites(write)
    ensures var a := Apply(m, rs, admit, key, write);
      Apply(a, rs, admit, key, write) == a
  {
    var a := Apply(m, rs, admit, key, write);
    var b := Apply(a, rs, admit, key, write);
    forall k | true
      ensures (k in b.Keys <==> k in a.Keys) && (k in a ==> b[k] == a[k])
    {
      ApplyAt(m, rs, admit, key, write, k);
      ApplyAt(a, rs, admit, key, write, k);
    }
    assert b.Keys == a.Keys;
  }

  /** On a second run every admitted record finds its key already stored, so it counts as updated. */
  lemma RerunUpdates<K, V, R>(m: map<K, V>, rs: seq<R>, admit: R -> bool, key: R -> K, write: (Option<V>, R) -> V)
    ensures var a := Apply(m, rs, admit, key, write);
      var os := Outcomes(a, rs, admit, key, write);
      forall i :: 0 <= i < |rs| ==> (os[i] == Updated <==> admit(rs[i])) && os[i] != Created
  {
    var a := Apply(m, rs, admit, key, write);
    forall i | 0 <= i < |rs|
      ensures var os := Outcomes(a, rs, admit, key, write);
        (os[i] == Updated <==> admit(rs[i])) && os[i] != Created
    {
      OutcomeAt(a, rs, admit, key, write, i);
      if admit(rs[i]) {
        AdmittedKeysPresent(m, rs, admit, key, write, i);
        KeysGrow(a, rs[..i], admit, key, write);
      }
    }
  }

  /** With `get_or_create`, a row that was stored before the run is still there, unchanged. */
  lemma {:induction false} KeepExisting<K, V(!new), R(!new)>(m: map<K, V>, rs: seq<R>, admit: R -> bool, key: R -> K, write: (Option<V>, R) -> V, k: K)
    requires KeepsExisting(write)
    requires k in m
    ensures var a := Apply(m, rs, admit, key, write);
      k in a && a[k] == m[k]
    decreases |rs|
  {
    if |rs| > 0 {
      KeepExisting(m, rs[..|rs| - 1], admit, key, write, k);
    }
  }

  /** With `get_or_create`, a table that already holds every admitted key is left as it is. */
  lemma {:induction false} KeepAll<K, V(!new), R(!new)>(m: map<K, V>, rs: seq<R>, admit: R -> bool, key: R -> K, write: (Option<V>, R) -> V)
    requires KeepsExisting(write)
    requires forall i :: 0 <= i < |rs| && admit(rs[i]) ==> key(rs[i]) in m
    ensures Apply(m, rs, admit, key, write) == m
    decreases |rs|
  {
    if |rs| > 0 {
      KeepAll(m, rs[..|rs| - 1], admit, key, write);
      var x := rs[|rs| - 1];
      if admit(x) {
        assert m[key(x) := m[key(x)]] == m;
      }
    }
  }

  /** With `get_or_create`, running the same list a second time changes nothing. */
  lemma KeepRerun<K, V(!new), R(!new)>(m: map<K, V>, rs: seq<R>, admit: R -> bool, key: R -> K, write: (Option<V>, R) -> V)
    requires KeepsExisting(write)
    ensures var a := Apply(m, rs, admit, key, write);
      Apply(a, rs, admit, key, write) == a
  {
    var a := Apply(m, rs, admit, key, write);
    forall i | 0 <= i < |rs| && admit(rs[i])
      ensures key(rs[i]) in a
    {
      AdmittedKeysPresent(m, rs, admit, key, write, i);
    }
    KeepAll(a, rs, admit, key, write);
  }
}
